=== FILE: README.md ===
# blogengine core in Dafny

A model of the serving core of a small Go blog server that holds its site in memory. The model covers five parts:

- **Page compilation** (`page.go`, module `PageParser`). An article file named `yyyy-mm-dd-slug` becomes a page at `/yyyy/mm/dd/slug`. The name's date must be a real Gregorian date. Line 1 of the file is the title. Line 2 is read and dropped. The rest is markdown.
- **Content-index assembly** (`parse` and `renderIndex` in `main.go`, module `ContentIndex`). All pages are compiled in the file-name order `ioutil.ReadDir` returns (the model takes any listing, in its given order), and the first failure aborts the build. The result maps every page path to its document, and maps `/` to the listing with the latest article first.
- **Request dispatch.** There are two snapshots of the dispatcher, and each is its own module.
  - `main.go` (`MainMux`) checks the alias table before the content index.
  - `http.go` (`HttpMux`) checks the content index before the alias table.
  - Both share the bearer-token gate on `/metrics`, the host gate, redirect targets with the query re-appended and the status-capturing response writer (module `Serving`).
  - Module `Serving` also holds `main.go`'s HTTP→HTTPS redirect handler.
- **Directory-index rule for static files** (module `UnderlyingFs`). A directory is servable only if `TrimSuffix(path, "/") + "/index.html"` opens. `PlainFs` models the non-caching wrapper in `main.go`.
- **Memoising static store** (`filesystem.go`, module `CachingFs`). A `map<string, Entry>` cache is threaded through `Open`. A hit rewinds the entry. A miss builds an entry from the underlying disk and caches it only on success. Nothing is ever evicted.

These things outside the core are parameters of the model:

- The markdown renderer, the page template and the listing template are function parameters. A template returns `None` when it fails.
- The article directory is given as its listing plus a map from path to contents.
- The static root is a map from path to `Node`: the stat, the outcome of reading the file, and the outcome of listing it.
- The metrics handler and the static file server appear only as the `Metrics` and `Static` outcomes of dispatch.

Go strings are modelled as Dafny strings, and byte slices as `seq<byte>`. Article contents are strings, because Go's `string([]byte)` conversion changes no bytes.

In several places the code does something other than what one might expect of such a server. The model follows the code:

- **Page path and date.** One might expect pages under `/b/<name>` with a `DD/MM/YYYY` date read from line 2. `page.go` builds the path `/yyyy/mm/dd/slug` from the date in the file name and discards line 2.
- **Precedence.** One might expect content always to win over an alias. The `main.go` dispatcher checks aliases first. Only `http.go` checks content first.
- **Token header.** One might expect `Bearer <token>` to be required. The code accepts any first word, even an empty one, as long as the header has exactly two space-separated chunks (`Serving.MetricsGateAdmits`).
- **Malformed headers.** One might expect every malformed header to get 401. As written, a header without a space makes the handler panic.
- **Captured status.** One might expect the writer wrapper to capture the first status written. The code keeps the last one (`Serving.StatusCodeIsLastWrite`).

## Model

| member | source | states |
|---|---|---|
| FilePath.BaseIgnoresDirectory | page.go:30 | A slash-free, non-empty name is its own base name, and any directory in front of it is dropped. |
| Calendar.DaysIn | page.go:41-44 | Month lengths lie between 28 and 31. The length is 29 exactly for February of a leap year, 28 exactly for February of any other year, and 30 exactly for April, June, September and November. |
| Calendar.YearLength | page.go:41-44 | The month lengths used to validate the day add up to 365 days, or 366 in a leap year. |
| Calendar.ParseDate | page.go:41-44 | Parsing with the `2006/01/02` layout succeeds only for a real calendar date, and formatting that date gives back the input. The input is reported malformed exactly when it lacks the 4-2-2 digit shape. For a shaped input the month is checked first: a month outside 1-12 gives `MonthOutOfRange`, and a valid month with a day outside that month's length in that year gives `DayOutOfRange`. |
| Calendar.ParseFormatted | page.go:41 | Every valid date in years 0000-9999 survives formatting then parsing. |
| PageParser.FindDate | page.go:26-35 | The match is a prefix of the name with the `yyyy-mm-dd` digit shape. There is no match exactly when no prefix of the name has that shape. |
| PageParser.NameHeader | page.go:26-48 | A base name without the `yyyy-mm-dd` prefix fails with `NoDateInName`, and only then. With the prefix, it succeeds exactly when some valid date formats to the prefix. On success that date is the page's date, and the path starts with `/yyyy/mm/dd/`. A name with the prefix that fails gets `BadDate` with a month or day range error, never `Malformed`. |
| PageParser.ReadLine | page.go:55-58 | `ReadLine` reports end of input exactly for empty input. Otherwise the line holds no newline, and the line, its `\n`, `\r\n` or nothing (only at the end) and the rest make up the input. |
| PageParser.ReadPage | page.go:49-75 | The title is a newline-free prefix of the file. A body, when there is one, is a proper suffix of the file. |
| PageParser.ParsePage | page.go:29-87 | `NoDateInName` exactly when the base name lacks the date prefix. On success the page date is a valid date whose dashed formatting is the name's prefix, and the path starts with `/yyyy/mm/dd/`. The title is line 1 and the content is the template's output on that title, the rendered body and the date. Once the name yields a date, `TemplateFailed` occurs exactly when the template fails. |
| PageParser.CompiledArticle | page.go:29-87 | For every valid date, slash-free slug, newline-free title line, second line and rest: `yyyy-mm-dd-slug` compiles to the page at `/yyyy/mm/dd/slug` titled by line 1, holding the template's output on the rendered rest. It fails with `TemplateFailed` exactly when the template fails. |
| PageParser.ParsePageIgnoresDirectory | page.go:30 | Putting any directory in front of a plain file name does not change the compiled page or error. |
| PageParser.PathOfDatedName | page.go:39-46 | For `yyyy-mm-dd-slug` with a valid date, the path is exactly `/yyyy/mm/dd/slug` with the extension kept, and the date is that date. |
| PageParser.PathOfUndashedName | page.go:39-46 | When the date is not followed by `-`, the whole name is kept: the path is `/yyyy/mm/dd/` followed by the full name. |
| PageParser.CompiledUndashed | page.go:29-48 | For every valid date and slash-free rest not starting with `-`: the name `yyyy-mm-dd<rest>` compiles exactly when the template succeeds, and then to the path `/yyyy/mm/dd/yyyy-mm-dd<rest>` with that date. |
| PageParser.HeaderIndependentOfInput | page.go:32-48 | Name-derived errors, path and date are the same for every file content. |
| PageParser.TitleIsFirstLine | page.go:55-62 | The title is the first line, without its `\n` or `\r\n`. |
| PageParser.SingleLinePage | page.go:55-66 | A file without a newline is all title and has no body. The empty file has an empty title. |
| PageParser.SecondLineDiscarded | page.go:64-74 | After two lines, the body is exactly the rest. Changing line 2 never changes the compiled page, also when a non-empty line 2 ends the file without a newline: that file compiles like one whose line 2 is newline-terminated with nothing after it. |
| PageParser.LastSecondLine | page.go:55-74 | A non-empty second line that ends the file without a newline is read and dropped: the title is line 1 without a trailing `\r`, and the body is present and empty. |
| PageParser.BodyIffSecondLine | page.go:64-74 | A body exists exactly when some newline is followed by more input, that is, when the file has a second line. |
| PageParser.RendererSeesOnlyBody | page.go:64-74 | The markdown renderer is consulted only on the text after line 2, and not at all for a file without a second line. |
| ContentIndex.CompileEach | main.go:146-159 | For any per-entry step, the loop yields every entry's page in listing order, or the error of the first entry whose step fails, with every earlier entry succeeding. |
| ContentIndex.CompileAll | main.go:146-159 | On success there is one page per listed entry, in order, each the compiled file. On failure the error is that of some entry before which every entry compiled, i.e. the first failing one. |
| ContentIndex.CompileFile | main.go:147-156 | A file that cannot be opened fails with `OpenFailed`. An openable file gives exactly `parsePage`'s result: the same page, or `PageFailed` carrying its error. Every error names the joined path. A compiled page has a valid date and a path starting with `/yyyy/mm/dd/`, so it is never `/`. |
| ContentIndex.Collect | main.go:157 | The content map has at most one key per page, and every page's path is a key. |
| ContentIndex.CollectLastWins | main.go:157 | The content map binds exactly the pages' paths, each to the document of the last page with that path. |
| ContentIndex.Insert | main.go:171 | Inserting a page into a latest-first sequence keeps it latest-first and adds exactly that page. |
| ContentIndex.SortLatestFirst | main.go:171 | The reverse sort is a permutation of its input in which no page is dated before a later-listed one. |
| ContentIndex.RenderIndex | main.go:169-177 | The listing template is run on some latest-first permutation of the pages. |
| ContentIndex.Parse | main.go:139-165 | A listing failure is `ReadDirFailed`. A compile failure is returned as it is. Once every page compiles, the build succeeds exactly when the listing template succeeds, and otherwise fails with `IndexFailed`. Every successful build has `/`. |
| ContentIndex.ParseStopsAtFirstError | main.go:146-156 | The build returns the first failing entry's error and no map. |
| ContentIndex.ParseContents | main.go:157-164 | On success, `/` holds the listing rendered from the latest-first pages. Every page path holds the last such page's document. No other keys exist. |
| Serving.MetricsGate | main.go:214-223 | On `/metrics`, the only outcomes are delegation to the metrics handler, 401 or a panic. |
| Serving.MetricsGateAdmits | main.go:215-219 | The metrics handler is reached exactly for a header made of two space-free words whose second is the token. |
| Serving.MetricsGatePanics | main.go:220 | The gate panics exactly when the header contains no space, so the log statement's `chunks[1]` is out of range. |
| Serving.MissingAuthorizationPanics | main.go:215-220 | A `/metrics` request without an Authorization header panics instead of getting 401. |
| Serving.CheckedMetricsGate | main.go:214-223 | The gate with a length check: every refusal is 401 and it never panics. |
| Serving.CheckedGateAgrees | main.go:214-223 | The checked gate admits the same headers, and agrees with the as-written gate wherever that one does not panic. |
| Serving.WithQueryRoundTrip | main.go:232-234 | Appending the query to a target free of `?` and `#` adds a `?` exactly when the query is non-empty. For a `#`-free query, the client reads back that target and that query, dropping any `#` fragment before splitting at `?`. |
| Serving.RedirectToHttps | main.go:124-137 | A 404 is written exactly for a foreign host. Otherwise the answer is a 307 whose target starts with `https://` followed by the host. |
| Serving.HttpsRedirectKeepsRequest | main.go:130-135 | For a path without `?` or `#`, the redirect target reads back as `https://host + path` and the request's query. |
| Serving.EncodedQuestionMarkSplitsPath | main.go:130 | A decoded path `/a?b` with an empty query is redirected so that the client reads path `/a` with query `b`. |
| Serving.EncodedHashTruncatesPath | main.go:130 | A decoded path `/a#b` is redirected so that the client reads path `/a`, the rest being taken as a fragment. |
| Serving.EscapePath | main.go:130 | The escaped path holds neither `?` nor `#`, so a client cannot read either as a delimiter. |
| Serving.UnescapeEscape | main.go:130 | Decoding the escaped path gives back the original path, for every path. |
| Serving.RedirectToHttpsEscaped | main.go:124-137 | The corrected handler writes 404 exactly for a foreign host, and otherwise a 307 to `https://host…`. |
| Serving.EscapedRedirectKeepsRequest | main.go:130-135 | With the escaped path, every path a client can send is carried over whatever characters it holds, and so is every `#`-free query: the query reads back, and decoding the location after the host gives the path. |
| Serving.WriteHeader | main.go:193-196 | After `WriteHeader(code)` the wrapper reports that code, or 200 for a code of 0, whatever was written before. |
| Serving.StatusCode | main.go:198-203 | The reported status is never 0. It is the remembered code when there is one, and 200 exactly when nothing (or 200) was written. |
| Serving.StatusCodeIsLastWrite | main.go:193-203 | The captured status is 200 if `WriteHeader` was never called. Otherwise it is the most recent code, where a final 0 also reads as 200. |
| MainMux.Dispatch | main.go:205-246 | The only statuses written are 401 and 404. Redirects are 307. Metrics and panics happen only on `/metrics`. A body is the stored bytes for the path, verbatim. |
| MainMux.MetricsIgnoresHost | main.go:214-228 | `/metrics` is decided by the header alone, whatever the host. It reaches the handler exactly for `<word> <token>` and panics exactly for a space-free header. |
| MainMux.ForeignHostNotFound | main.go:224-228 | Any other path on a foreign host gets 404, even if it is in the content index or the alias table. |
| MainMux.AliasBeforeContent | main.go:230-238 | An alias hit wins over content and is always a 307. The target is the alias alone for an empty query, and otherwise the alias, `?` and the raw query. When neither the alias nor the query holds a delimiter, the client reads back the alias and the query. |
| MainMux.ContentThenStatic | main.go:239-245 | Content is written exactly for an unaliased indexed path on the configured host. The static server is reached exactly when neither table has the path. |
| MainMux.ObservedStatusOfDispatch | main.go:208-213 | The observer records the written 401 or 404, 307 for aliases, and 200 both for content and for a request that panicked. |
| HttpMux.Dispatch | http.go:20-66 | The only statuses written are 401 and 404. Redirects are 307. Metrics and panics happen only on `/metrics`. A redirect happens only for an aliased path that is not in the content index. |
| HttpMux.MetricsIgnoresHost | http.go:31-40 | `/metrics` is decided by the header alone, whatever the host. Two space-separated chunks with the second equal to the token are required. 401 is written exactly for a header that has a space but not the token. |
| HttpMux.ForeignHostNotFound | http.go:42-46 | A foreign host gets 404 on every non-metrics path, before any lookup. |
| HttpMux.ContentBeforeAlias | http.go:48-52 | An indexed path is served verbatim from the index even if it is also aliased. |
| HttpMux.AliasRedirectKeepsQuery | http.go:54-62 | An alias hit without a content hit is always a 307. The target is the alias alone for an empty query, and otherwise the alias, `?` and the raw query. When neither holds a delimiter, the client reads back the alias and the query. |
| HttpMux.StaticOnlyWhenUnmatched | http.go:48-64 | The static server is reached exactly when the path is in neither table, on the configured host and off `/metrics`. |
| HttpMux.VariantsDifferOnlyOnShadowedPaths | http.go:48-62 | The two dispatchers answer alike except for a path in both tables on the configured host. |
| HttpMux.ObservedStatusOfDispatch | http.go:74-84 | The recorded status is the last written code, else 200. A panicked request and a delegated handler that writes no header count as 200. |
| UnderlyingFs.IndexPathOfDirectory | main.go:262 | A directory path with or without one trailing slash needs the same `dir/index.html`. |
| PlainFs.Open | main.go:254-269 | An open succeeds exactly for an existing path that is not a directory lacking its `index.html`, and returns the underlying file unchanged. |
| PlainFs.OpenPassesThrough | main.go:255-268 | Files and failures pass through unchanged. A directory without an index fails with the error from opening the index. |
| PlainFs.DirectoryNeedsIndex | main.go:261-266 | A directory, spelled with or without a trailing slash, opens exactly when `dir/index.html` opens. |
| CachingFs.NewFile | filesystem.go:51-80 | An entry is built exactly when the path opens, a directory's index opens and its listing can be read, and the data can be read. The entry holds the full bytes from position 0, the stat, and the listing (empty for a file). Failures are reported from the first step that fails: `NotExist` for the path, then `NotExist` for a directory's `index.html`, then the listing's error, then the data's error. |
| CachingFs.Open | filesystem.go:27-43 | Keys only grow and other entries are untouched. A miss returns exactly what `newFile` builds from the current disk, and a failed open changes nothing. A success caches the returned entry at position 0. A hit returns the cached entry rewound. |
| CachingFs.OpenIsTransparent | filesystem.go:27-43 | With a cache that memoises `newFile`, `Open` returns exactly what an uncached `newFile` would, and the cache still memoises it. |
| CachingFs.ReadKeepsMemo | filesystem.go:45-49 | Reading through the shared handle moves only the cached position, keeping the cache a memo with the same keys. |
| CachingFs.Read | filesystem.go:45-49 | A read returns exactly the smaller of `n` and the bytes remaining, taken from the entry's bytes at the read position, and advances only that entry's position by their number. It returns nothing exactly at the end or for `n` = 0. |
| CachingFs.HitReplaysFromStart | filesystem.go:31-36 | Two opens of a file with a read in between both yield the same first `n` bytes from offset 0. |
| CachingFs.OpenedEntryAnswers | filesystem.go:70-92 | An opened entry has the file's full bytes and its creation-time stat. `Readdir` gives a directory's listing for every count, and `Close` succeeds. |
| CachingFs.Readdir | filesystem.go:86-88 | `Readdir` never fails, and for every count returns the listing the disk had for the path the entry was built from (empty for a plain file). |
| CachingFs.Stat | filesystem.go:90-92 | `Stat` never fails and returns the stat the disk had for the path the entry was built from. |
| CachingFs.ReopenAfterClose | filesystem.go:31-36 | `Close` returns no error and evicts nothing. After an open, a read and a close, the next open is a hit: it returns the same entry rewound to the start, whatever the disk now holds, and adds no key. |
| CachingFs.AgreesWithPlain | filesystem.go:59-67 | The caching store follows the plain wrapper's directory-index rule. It refuses only what the plain wrapper refuses or what cannot be read. |
| CachingFs.EmptyIsMemo | filesystem.go:20-25 | The cache of a new file system memoises `newFile` for any disk. |

## Left out

- **Concurrency.** Both file systems are modelled sequentially. The caching store's mutex is taken through a value receiver, so it locks a copy and gives no exclusion. The model does not represent this.
- **Metrics, timing and logging.** Prometheus registration and observation, `time.Now` latency and all log output are outside the model. Only the status the observer reads is modelled.
- **Foreign libraries.** Markdown rendering (blackfriday) and `html/template` execution are function parameters. Their output is not interpreted.
- **Start-up plumbing.** Alias-file JSON decoding, environment configuration, TLS, ports, timeouts and keep-alive settings are I/O and configuration.
- **External handlers.** The behaviour of `http.FileServer` and of the metrics handler is only the `Static` and `Metrics` outcomes. The headers those handlers write are a parameter of the observed status.
- **`http.Redirect`.** For a target without a scheme and host, `http.Redirect` resolves a relative target against the request path. It then applies `path.Clean` to the path part, so an alias target such as `/a/../b` is sent as `/b`. This cleaning, the HTML body it writes and its escaping of non-ASCII characters are not modelled. The target is the string passed to it.
- **Panics.** A panic is the `Panic` outcome. How net/http recovers from it and closes the connection is not modelled.
- **Long lines.** `bufio.Reader.ReadLine` splits lines longer than its 4096-byte buffer into prefixes. The model assumes shorter lines, as the source's own comment does (page.go:54).
- **Read errors.** Read errors on an opened article file are not modelled. The model's errors while compiling a page are a missing date, a bad date and a template failure.
- **Directory listing.** `ioutil.ReadDir` is a parameter: the listing, or `None` when it fails. `filepath.Join`'s path cleaning is not modelled: the joined path is opened and named in errors, and the operating system resolves the cleaned and uncleaned spellings to the same file, while `files` is an abstract map from path to contents.
- **Sort comparator.** `Pages.Less` is not part of this model. It is taken to be chronological order of dates. Go's `sort.Sort` is not stable, so the order of pages with the same date, and hence the exact listing bytes, is not modelled. `ContentIndex.SortLatestFirst` fixes one latest-first permutation.
- **Underlying file handles.** The unchecked `Stat` error, the handles that are never closed and the real `http.File` operations are not modelled. The disk is a map, and a missing key means the open fails.
- **Reader positioning.** Seeking anywhere other than back to the start is not modelled.
- MainMux.AliasBeforeContent: states the client's reading of the target only for alias targets without `?` or `#` and for queries without `#`. The target string itself is stated for every alias. With a `?` in the target, the query is still appended after `"?"` as written, but a client reads the boundary at the target's own `?`. With a `#`, the client drops the rest as a fragment. A raw `#` cannot occur in a query a conforming client sends (section 3.4 of RFC 3986).
- HttpMux.AliasRedirectKeepsQuery: the client's reading has the same restriction to alias targets without `?` or `#` and to `#`-free queries, for the same reasons. The target string itself is stated for every alias.
- Serving.HttpsRedirectKeepsRequest: stated only for paths without `?` or `#`. `Serving.EncodedQuestionMarkSplitsPath` and `Serving.EncodedHashTruncatesPath` show what happens otherwise.
- Serving.EscapedRedirectKeepsRequest: stated only for queries without a raw `#`, which a conforming client never sends. The host is taken to be free of `?` and `#`, as net/http's Host header check guarantees.
- CachingFs.NewFile: a node's `data` is left free for directories too. On Linux, `ioutil.ReadAll` on a directory handle fails with `EISDIR`, so `newFile` rejects directories in practice. The model states that outcome only for disks whose directory nodes hold a failed `data`.
- CachingFs.Read: `io.EOF` is not returned. An empty read at the end of the bytes stands for it.

## Findings

| source | as written | input that shows it | evidently intended | confidence | as-written member | corrected member |
|---|---|---|---|---|---|---|
| main.go:220 | When a `/metrics` request is refused, the log statement reads `chunks[1]` before any length check (http.go:37 does the same). A header without a space splits into one chunk, so the handler panics. The deferred observer then records the request as 200. | `/metrics` with no Authorization header, which splits to `[""]` | every refused request gets 401 | high; not executed | Serving.MissingAuthorizationPanics | Serving.CheckedMetricsGate |
| main.go:130 | The HTTPS redirect target is built from the decoded `r.URL.Path`. An encoded `?` in the path therefore comes back as a query separator, and an encoded `#` as the start of a fragment. | `GET /a%3Fb` with an empty query: the decoded path is `/a?b`, and the client reads the target as path `/a` with query `b`. `GET /a%23b`: the client reads path `/a` | redirect to the same path and query over https | medium; not executed | Serving.EncodedQuestionMarkSplitsPath | Serving.RedirectToHttpsEscaped |

The dispatch functions model the code as written, including the `Panic` outcome. `Serving.CheckedMetricsGate` is the gate with the length check. `Serving.CheckedGateAgrees` proves that it never panics, admits exactly the same headers, and agrees with the as-written gate everywhere else. `Serving.RedirectToHttpsEscaped` percent-encodes `%`, `?` and `#` in the path. `Serving.EscapedRedirectKeepsRequest` proves that the client then recovers both the path and the query. `Serving.EncodedHashTruncatesPath` is the as-written counterpart for `#`.

=== FILE: caching_fs.dfy ===
/** The memoising FileSystem of filesystem.go: the first successful open of
    a path reads it completely into an entry that stays in the cache for
    the life of the process; later opens of the path return that entry
    with its read position rewound. The cache is threaded explicitly
    through Open. The source's mutex is taken through a value receiver and
    so locks a copy; the model is sequential. */
module CachingFs {
  import opened Wrappers
  import opened Text
  import opened UnderlyingFs
  import PlainFs

  /** A cached file (File in the source): the bytes read at creation with a
      read position over them (bytes.Reader), the stat captured at
      creation, and the directory listing (empty for a plain file). */
  datatype Entry = Entry(content: Bytes, pos: nat, stat: FileInfo, files: seq<FileInfo>)

  type Cache = map<string, Entry>

  /** The cache of newFileSystem. */
  const Empty: Cache := map[]

  /** newFile(path, fs): open the path; for a directory, require its
      index.html to open and snapshot its listing; read all bytes. The
      first failing step's error is returned. */
  function NewFile(disk: Disk, path: string): (r: Result<Entry, FsError>)
    ensures r.Success? <==>
      && path in disk
      && (disk[path].info.isDir ==> IndexPath(path) in disk && disk[path].listing.Success?)
      && disk[path].data.Success?
    ensures r.Success? ==>
      && r.value.pos == 0
      && r.value.stat == disk[path].info
      && disk[path].data == Success(r.value.content)
      && r.value.files == (if disk[path].info.isDir then disk[path].listing.value else [])
    ensures path !in disk ==> r == Failure(NotExist(path))
    ensures path in disk && disk[path].info.isDir && IndexPath(path) !in disk ==>
      r == Failure(NotExist(IndexPath(path)))
    ensures path in disk && disk[path].info.isDir && IndexPath(path) in disk && disk[path].listing.Failure? ==>
      r == Failure(disk[path].listing.error)
    ensures (&& path in disk
             && (disk[path].info.isDir ==> IndexPath(path) in disk && disk[path].listing.Success?)
             && disk[path].data.Failure?) ==>
      r == Failure(disk[path].data.error)
  {
    match OpenDisk(disk, path)
    case Failure(e) => Failure(e)
    case Success(f) =>
      var files: Result<seq<FileInfo>, FsError> :=
        if !f.info.isDir then Success([])
        else if OpenDisk(disk, IndexPath(path)).Failure? then Failure(OpenDisk(disk, IndexPath(path)).error)
        else f.listing;
      match files
      case Failure(e) => Failure(e)
      case Success(listing) =>
        match f.data
        case Failure(e) => Failure(e)
        case Success(bytes) => Success(Entry(bytes, 0, f.info, listing))
  }

  /** The cache remembers newFile: every entry is what newFile builds for
      its key, up to the read position, which stays within the bytes. */
  predicate Memo(cache: Cache, disk: Disk) {
    forall k :: k in cache ==>
      NewFile(disk, k) == Success(cache[k].(pos := 0)) && cache[k].pos <= |cache[k].content|
  }

  /** The result of Open: the cache afterwards and the opened file. */
  datatype Opened = Opened(cache: Cache, file: Result<Entry, FsError>)

  /** FileSystem.Open(path): a hit rewinds the cached entry and returns it;
      a miss builds an entry with newFile and caches it only on success. */
  function Open(cache: Cache, disk: Disk, path: string): (o: Opened)
    ensures cache.Keys <= o.cache.Keys
    ensures forall k :: k in cache && k != path ==> k in o.cache && o.cache[k] == cache[k]
    ensures o.file.Failure? ==> o.cache == cache
    ensures o.file.Success? ==> o.cache == cache[path := o.file.value] && o.file.value.pos == 0
    ensures path in cache ==> o.file.Success? && o.file.value == cache[path].(pos := 0)
    ensures path !in cache ==> o.file == NewFile(disk, path)
  {
    if path in cache then
      var f := cache[path].(pos := 0);
      Opened(cache[path := f], Success(f))
    else
      match NewFile(disk, path)
      case Failure(e) => Opened(cache, Failure(e))
      case Success(f) => Opened(cache[path := f], Success(f))
  }

  /** The cache is invisible to callers: with a memo cache Open returns
      exactly what an uncached newFile would, and leaves a memo cache. */
  lemma OpenIsTransparent(cache: Cache, disk: Disk, path: string)
    requires Memo(cache, disk)
    ensures Open(cache, disk, path).file == NewFile(disk, path)
    ensures Memo(Open(cache, disk, path).cache, disk)
  {
  }

  /** Read on a handle of the cached entry for `path` (bytes.Reader.Read
      into a buffer of `n` bytes): the bytes from the read position on, at
      most `n` of them, and the position moved past them. The handle is
      shared with the cache, so the cached entry moves too. */
  function Read(cache: Cache, path: string, n: nat): (r: (Cache, Bytes))
    requires path in cache
    ensures r.0.Keys == cache.Keys
    ensures forall k :: k in cache && k != path ==> r.0[k] == cache[k]
    ensures |r.1| <= n
    ensures var e := cache[path];
      e.pos <= |e.content| ==> |r.1| == if n < |e.content| - e.pos then n else |e.content| - e.pos
    ensures r.1 == [] <==> n == 0 || cache[path].pos >= |cache[path].content|
    ensures var e := cache[path];
      e.pos <= |e.content| ==>
        && e.pos + |r.1| <= |e.content|
        && r.0[path] == e.(pos := e.pos + |r.1|)
        && r.1 == e.content[e.pos..e.pos + |r.1|]
  {
    var e := cache[path];
    if e.pos >= |e.content| then (cache, [])
    else
      var end := if e.pos + n < |e.content| then e.pos + n else |e.content|;
      (cache[path := e.(pos := end)], e.content[e.pos..end])
  }

  /** Reading keeps the cache a memo: only the position moves. */
  lemma ReadKeepsMemo(cache: Cache, disk: Disk, path: string, n: nat)
    requires path in cache && Memo(cache, disk)
    ensures Memo(Read(cache, path, n).0, disk)
    ensures Read(cache, path, n).0.Keys == cache.Keys
  {
  }

  /** Two opens of the same file, with a read in between, both start at
      byte 0: the same first `n` bytes are read each time. */
  lemma HitReplaysFromStart(cache: Cache, disk: Disk, path: string, n: nat)
    requires Memo(cache, disk)
    requires NewFile(disk, path).Success?
    ensures var o1 := Open(cache, disk, path);
            var (c1, first) := Read(o1.cache, path, n);
            var o2 := Open(c1, disk, path);
            var (_, second) := Read(o2.cache, path, n);
            var content := NewFile(disk, path).value.content;
      && first == second
      && first == content[..if n < |content| then n else |content|]
  {
  }

  /** Readdir(count) returns, whatever the count, the listing the disk had
      when the entry was built (empty for a plain file). */
  function Readdir(f: Entry, count: int): (r: (seq<FileInfo>, Option<FsError>))
    ensures r.1 == None
    ensures forall disk: Disk, path: string :: NewFile(disk, path) == Success(f.(pos := 0)) ==>
      r.0 == if disk[path].info.isDir then disk[path].listing.value else []
  {
    (f.files, None)
  }

  /** Stat() returns the stat the disk had when the entry was built. */
  function Stat(f: Entry): (r: (FileInfo, Option<FsError>))
    ensures r.1 == None
    ensures forall disk: Disk, path: string :: NewFile(disk, path) == Success(f.(pos := 0)) ==>
      r.0 == disk[path].info
  {
    (f.stat, None)
  }

  /** Close() always succeeds and leaves the entry in the cache. */
  function Close(f: Entry): (err: Option<FsError>)
    ensures err == None
  {
    None
  }

  /** Close does not evict: after an open, a read and a Close, the next
      open of the path is a hit that returns the same entry rewound to the
      start and leaves the key set as it was, whatever the disk now holds. */
  lemma ReopenAfterClose(cache: Cache, disk: Disk, later: Disk, path: string, n: nat)
    requires Open(cache, disk, path).file.Success?
    ensures var o1 := Open(cache, disk, path);
            var (c1, _) := Read(o1.cache, path, n);
            var o2 := Open(c1, later, path);
      && Close(o1.file.value) == None
      && o2.file == o1.file
      && o2.cache.Keys == o1.cache.Keys
  {
    var o1 := Open(cache, disk, path);
    var (c1, _) := Read(o1.cache, path, n);
    assert c1[path].(pos := 0) == o1.file.value;
  }

  /** An opened entry answers from the disk state at its creation: the
      full bytes, the stat, and for a directory its listing, for every
      Readdir count. */
  lemma OpenedEntryAnswers(cache: Cache, disk: Disk, path: string, count: int)
    requires Memo(cache, disk)
    requires Open(cache, disk, path).file.Success?
    ensures var f := Open(cache, disk, path).file.value;
      && path in disk
      && disk[path].data == Success(f.content)
      && Stat(f) == (disk[path].info, None)
      && Readdir(f, count) == (if disk[path].info.isDir then (disk[path].listing.value, None) else ([], None))
      && Close(f) == None
  {
    OpenIsTransparent(cache, disk, path);
  }

  /** The caching store applies the same directory-index rule as the plain
      wrapper: whatever it opens the plain wrapper opens, and it refuses
      only what the plain wrapper refuses or what cannot be read. */
  lemma AgreesWithPlain(disk: Disk, path: string)
    ensures NewFile(disk, path).Success? ==> PlainFs.Open(disk, path) == Success(disk[path])
    ensures PlainFs.Open(disk, path).Success? ==>
      (NewFile(disk, path).Success? <==>
        disk[path].data.Success? && (disk[path].info.isDir ==> disk[path].listing.Success?))
  {
  }

  /** The empty cache of newFileSystem is a memo of any disk. */
  lemma EmptyIsMemo(disk: Disk)
    ensures Memo(Empty, disk)
  {
  }
}

=== FILE: calendar.dfy ===
/** Gregorian calendar arithmetic and the fixed-width date layout that
    time.Parse("2006/01/02", ...) accepts. */
module Calendar {
  import opened Wrappers
  import opened Text

  /** A civil date (time.Time at midnight UTC). */
  datatype Date = Date(year: int, month: int, day: int)

  predicate IsLeap(year: int) {
    year % 4 == 0 && (year % 100 != 0 || year % 400 == 0)
  }

  /** The number of days in `month` of `year`. */
  function DaysIn(month: int, year: int): (n: int)
    requires 1 <= month <= 12
    ensures 28 <= n <= 31
    ensures n == 29 <==> month == 2 && IsLeap(year)
    ensures n == 28 <==> month == 2 && !IsLeap(year)
    ensures n == 30 <==> month == 4 || month == 6 || month == 9 || month == 11
  {
    if month == 2 then (if IsLeap(year) then 29 else 28)
    else if month == 4 || month == 6 || month == 9 || month == 11 then 30
    else 31
  }

  /** Days in the first `months` months of `year`. */
  function DaysBefore(months: nat, year: int): nat
    requires months <= 12
  {
    if months == 0 then 0 else DaysBefore(months - 1, year) + DaysIn(months, year)
  }

  /** The month lengths add up to a 365-day year, or 366 in a leap year. */
  lemma YearLength(year: int)
    ensures DaysBefore(12, year) == if IsLeap(year) then 366 else 365
  {
    var feb := DaysIn(2, year);
    assert DaysBefore(1, year) == 31;
    assert DaysBefore(2, year) == 31 + feb;
    assert DaysBefore(3, year) == 62 + feb;
    assert DaysBefore(4, year) == 92 + feb;
    assert DaysBefore(5, year) == 123 + feb;
    assert DaysBefore(6, year) == 153 + feb;
    assert DaysBefore(7, year) == 184 + feb;
    assert DaysBefore(8, year) == 215 + feb;
    assert DaysBefore(9, year) == 245 + feb;
    assert DaysBefore(10, year) == 276 + feb;
    assert DaysBefore(11, year) == 306 + feb;
  }

  /** A date the four-digit layout can denote that exists in the calendar. */
  predicate ValidDate(d: Date) {
    && 0 <= d.year <= 9999
    && 1 <= d.month <= 12
    && 1 <= d.day <= DaysIn(d.month, d.year)
  }

  /** Chronological order of dates (the order assumed for Pages.Less). */
  predicate Before(a: Date, b: Date) {
    a.year < b.year
    || (a.year == b.year && a.month < b.month)
    || (a.year == b.year && a.month == b.month && a.day < b.day)
  }

  /** The value of a string of decimal digits. */
  function DigitsValue(s: string): nat
    requires AllDigits(s)
  {
    if s == [] then 0 else DigitsValue(s[..|s| - 1]) * 10 + (s[|s| - 1] as int - '0' as int)
  }

  /** `n` written with exactly `width` decimal digits, zero padded. */
  function Digits(n: nat, width: nat): (s: string)
    ensures |s| == width
    ensures AllDigits(s)
  {
    if width == 0 then [] else Digits(n / 10, width - 1) + [('0' as int + n % 10) as char]
  }

  function Pow10(k: nat): nat {
    if k == 0 then 1 else 10 * Pow10(k - 1)
  }

  /** Reading back `width` padded digits of `n` gives `n` when it fits. */
  lemma {:induction false} DigitsRoundTrip(n: nat, width: nat)
    requires n < Pow10(width)
    ensures DigitsValue(Digits(n, width)) == n
  {
    if width > 0 {
      DigitsRoundTrip(n / 10, width - 1);
      var s := Digits(n, width);
      assert s[..|s| - 1] == Digits(n / 10, width - 1);
    }
  }

  /** Writing back the value of a digit string with its own width gives the
      string again. */
  lemma {:induction false} ValueRoundTrip(s: string)
    requires AllDigits(s)
    ensures DigitsValue(s) < Pow10(|s|)
    ensures Digits(DigitsValue(s), |s|) == s
  {
    if s != [] {
      var init := s[..|s| - 1];
      ValueRoundTrip(init);
      var v := DigitsValue(s);
      var d := s[|s| - 1] as int - '0' as int;
      assert v / 10 == DigitsValue(init) && v % 10 == d;
      assert s == init + [s[|s| - 1]];
    }
  }

  /** `d` in the layout yyyy<sep>mm<sep>dd. */
  function Format(d: Date, sep: char): string
    requires 0 <= d.year && 0 <= d.month && 0 <= d.day
  {
    Digits(d.year, 4) + [sep] + Digits(d.month, 2) + [sep] + Digits(d.day, 2)
  }

  /** Four digits, `sep`, two digits, `sep`, two digits. */
  predicate Shaped(s: string, sep: char) {
    && |s| == 10
    && AllDigits(s[..4]) && s[4] == sep
    && AllDigits(s[5..7]) && s[7] == sep
    && AllDigits(s[8..])
  }

  datatype DateError = Malformed | MonthOutOfRange | DayOutOfRange

  /** time.Parse("2006/01/02", s): the month is range-checked before the
      day, and the day against the month's length in that year. */
  function ParseDate(s: string): (r: Result<Date, DateError>)
    ensures r.Success? ==> ValidDate(r.value) && Format(r.value, '/') == s
    ensures r == Failure(Malformed) <==> !Shaped(s, '/')
    ensures Shaped(s, '/') && !(1 <= DigitsValue(s[5..7]) <= 12) ==> r == Failure(MonthOutOfRange)
    ensures Shaped(s, '/') && 1 <= DigitsValue(s[5..7]) <= 12
        && !(1 <= DigitsValue(s[8..]) <= DaysIn(DigitsValue(s[5..7]), DigitsValue(s[..4])))
        ==> r == Failure(DayOutOfRange)
  {
    if !Shaped(s, '/') then Failure(Malformed)
    else
      var year := DigitsValue(s[..4]);
      var month := DigitsValue(s[5..7]);
      var day := DigitsValue(s[8..]);
      ValueRoundTrip(s[..4]);
      ValueRoundTrip(s[5..7]);
      ValueRoundTrip(s[8..]);
      assert s == s[..4] + [s[4]] + s[5..7] + [s[7]] + s[8..];
      if month < 1 || month > 12 then Failure(MonthOutOfRange)
      else if day < 1 || day > DaysIn(month, year) then Failure(DayOutOfRange)
      else Success(Date(year, month, day))
  }

  /** Every valid date survives formatting and parsing. */
  lemma ParseFormatted(d: Date)
    requires ValidDate(d)
    ensures ParseDate(Format(d, '/')) == Success(d)
  {
    var s := Format(d, '/');
    DigitsRoundTrip(d.year, 4);
    DigitsRoundTrip(d.month, 2);
    DigitsRoundTrip(d.day, 2);
    assert s[..4] == Digits(d.year, 4);
    assert s[5..7] == Digits(d.month, 2);
    assert s[8..] == Digits(d.day, 2);
  }
}

=== FILE: content_index.dfy ===
/** Start-up assembly of the content index (parse and renderIndex in
    main.go): every article file is compiled in directory order, the first
    failure aborts the whole build, and the result maps each page path to
    its document plus "/" to the rendered listing, latest article first. */
module ContentIndex {
  import opened Wrappers
  import opened Text
  import opened Calendar
  import opened PageParser

  datatype BuildError =
    | ReadDirFailed                             // the article directory could not be listed
    | OpenFailed(path: string)                  // an article file could not be opened
    | PageFailed(path: string, reason: PageError)  // an article did not compile
    | IndexFailed                               // the listing template failed

  /** Execution of the listing template on the sorted pages. */
  type IndexTemplate = seq<Page> -> Option<Bytes>

  /** filepath.Join(dir, name) for a directory and a plain entry name; the
      path cleaning Join also does is not modelled (the operating system
      resolves both spellings to the same file). */
  function JoinPath(dir: string, name: string): string {
    if dir == [] then name else dir + "/" + name
  }

  /** Opening and compiling the directory entry `name`; `files` holds the
      contents of every file that can be opened. Every error names the
      joined path, and a compiled page is never served at "/". */
  function CompileFile(dir: string, name: string, files: map<string, string>,
                       render: Renderer, execute: PageTemplate): (r: Result<Page, BuildError>)
    ensures r.Failure? ==> (r.error.OpenFailed? || r.error.PageFailed?) && r.error.path == JoinPath(dir, name)
    ensures r.Failure? ==> (r.error.OpenFailed? <==> JoinPath(dir, name) !in files)
    ensures JoinPath(dir, name) in files ==>
      var compiled := ParsePage(JoinPath(dir, name), files[JoinPath(dir, name)], render, execute);
      && (r.Success? <==> compiled.Success?)
      && (r.Success? ==> r.value == compiled.value)
      && (r.Failure? ==> r.error.reason == compiled.error)
    ensures r.Success? ==>
      && ValidDate(r.value.date)
      && |r.value.path| >= 12 && r.value.path[..12] == "/" + Format(r.value.date, '/') + "/"
  {
    var path := JoinPath(dir, name);
    if path !in files then Failure(OpenFailed(path))
    else match ParsePage(path, files[path], render, execute)
      case Failure(e) => Failure(PageFailed(path, e))
      case Success(p) => Success(p)
  }

  /** The loop over a listing for any per-entry step: the results in
      listing order, or the error of the first entry whose step fails. */
  function CompileEach(names: seq<string>, step: string -> Result<Page, BuildError>): (r: Result<seq<Page>, BuildError>)
    ensures r.Success? ==>
      |r.value| == |names| && forall i :: 0 <= i < |names| ==> step(names[i]) == Success(r.value[i])
    ensures r.Failure? ==>
      exists i :: 0 <= i < |names| && step(names[i]) == Failure(r.error) && forall j :: 0 <= j < i ==> step(names[j]).Success?
  {
    if names == [] then Success([])
    else
      match step(names[0])
      case Failure(e) => Failure(e)
      case Success(p) =>
        match CompileEach(names[1..], step)
        case Failure(e) =>
          ghost var i :| 0 <= i < |names[1..]| && step(names[1..][i]) == Failure(e)
            && forall j :: 0 <= j < i ==> step(names[1..][j]).Success?;
          assert names[i + 1] == names[1..][i];
          assert forall j :: 0 < j < i + 1 ==> names[j] == names[1..][j - 1];
          Failure(e)
        case Success(ps) =>
          assert forall i :: 1 <= i < |names| ==> names[i] == names[1..][i - 1];
          Success([p] + ps)
  }

  /** The loop over the directory listing: all pages in listing order, or
      the error of the first entry that fails. */
  function CompileAll(dir: string, names: seq<string>, files: map<string, string>,
                      render: Renderer, execute: PageTemplate): (r: Result<seq<Page>, BuildError>)
    ensures r.Success? ==>
      && |r.value| == |names|
      && forall i :: 0 <= i < |names| ==> CompileFile(dir, names[i], files, render, execute) == Success(r.value[i])
    ensures r.Failure? ==>
      exists i :: 0 <= i < |names|
        && CompileFile(dir, names[i], files, render, execute) == Failure(r.error)
        && forall j :: 0 <= j < i ==> CompileFile(dir, names[j], files, render, execute).Success?
  {
    CompileEach(names, name => CompileFile(dir, name, files, render, execute))
  }

  /** The content map: each page's path bound to its document, in order, so
      a later page replaces an earlier one with the same path. */
  function Collect(pages: seq<Page>): (m: map<string, Bytes>)
    ensures |m| <= |pages|
    ensures forall i :: 0 <= i < |pages| ==> pages[i].path in m
  {
    if pages == [] then map[]
    else
      var last := pages[|pages| - 1];
      Collect(pages[..|pages| - 1])[last.path := last.content]
  }

  /** No page after position `i` has the path of page `i`. */
  predicate LastOfPath(pages: seq<Page>, i: int)
    requires 0 <= i < |pages|
  {
    forall j :: i < j < |pages| ==> pages[j].path != pages[i].path
  }

  /** The content map binds exactly the pages' paths, each to the document
      of the last page with that path. */
  lemma {:induction false} CollectLastWins(pages: seq<Page>)
    ensures forall k :: k in Collect(pages) <==> exists i :: 0 <= i < |pages| && pages[i].path == k
    ensures forall i :: 0 <= i < |pages| && LastOfPath(pages, i) ==> Collect(pages)[pages[i].path] == pages[i].content
  {
    if pages != [] {
      var init := pages[..|pages| - 1];
      var last := pages[|pages| - 1];
      CollectLastWins(init);
      forall k
        ensures k in Collect(pages) <==> exists i :: 0 <= i < |pages| && pages[i].path == k
      {
        if k in Collect(init) {
          var i :| 0 <= i < |init| && init[i].path == k;
          assert pages[i] == init[i];
        }
        if exists i :: 0 <= i < |pages| && pages[i].path == k {
          var i :| 0 <= i < |pages| && pages[i].path == k;
          if i < |init| {
            assert init[i] == pages[i];
          }
        }
      }
      forall i | 0 <= i < |pages| && LastOfPath(pages, i)
        ensures Collect(pages)[pages[i].path] == pages[i].content
      {
        if i < |init| {
          assert pages[i].path != last.path;
          assert init[i] == pages[i];
          assert LastOfPath(init, i) by {
            forall j | i < j < |init|
              ensures init[j].path != init[i].path
            {
              assert init[j] == pages[j];
            }
          }
        }
      }
    }
  }

  /** Latest first: no page is dated before a page listed after it. */
  predicate LatestFirst(pages: seq<Page>) {
    forall i, j :: 0 <= i < j < |pages| ==> !Before(pages[i].date, pages[j].date)
  }

  /** Inserting one page into a latest-first sequence. */
  function Insert(p: Page, sorted: seq<Page>): (r: seq<Page>)
    requires LatestFirst(sorted)
    ensures LatestFirst(r)
    ensures multiset(r) == multiset(sorted) + multiset{p}
  {
    if sorted == [] then [p]
    else if !Before(p.date, sorted[0].date) then
      assert forall j :: 0 <= j < |sorted| ==> !Before(p.date, sorted[j].date);
      [p] + sorted
    else
      var rest := Insert(p, sorted[1..]);
      assert sorted == [sorted[0]] + sorted[1..];
      assert forall x :: x in rest ==> x == p || x in sorted[1..] by {
        forall x | x in rest
          ensures x == p || x in sorted[1..]
        {
          assert x in multiset(rest);
        }
      }
      assert forall j :: 0 <= j < |rest| ==> !Before(sorted[0].date, rest[j].date) by {
        forall j | 0 <= j < |rest|
          ensures !Before(sorted[0].date, rest[j].date)
        {
          assert rest[j] in rest;
          if rest[j] != p {
            var k :| 0 <= k < |sorted[1..]| && sorted[1..][k] == rest[j];
            assert sorted[k + 1] == rest[j];
          }
        }
      }
      [sorted[0]] + rest
  }

  /** sort.Sort(sort.Reverse(Pages(pages))): the same pages, latest first. */
  function SortLatestFirst(pages: seq<Page>): (r: seq<Page>)
    ensures LatestFirst(r)
    ensures multiset(r) == multiset(pages)
  {
    if pages == [] then []
    else
      assert pages == [pages[0]] + pages[1..];
      Insert(pages[0], SortLatestFirst(pages[1..]))
  }

  /** renderIndex: the listing template run on the pages sorted latest
      first. */
  function RenderIndex(pages: seq<Page>, index: IndexTemplate): (r: Option<Bytes>)
    ensures exists sorted :: LatestFirst(sorted) && multiset(sorted) == multiset(pages) && r == index(sorted)
  {
    index(SortLatestFirst(pages))
  }

  /** parse(dir): `listing` is the directory listing (None if it could not be
      read), `files` the contents of the files that can be opened. */
  function Parse(dir: string, listing: Option<seq<string>>, files: map<string, string>,
                 render: Renderer, execute: PageTemplate, index: IndexTemplate): (r: Result<map<string, Bytes>, BuildError>)
    ensures listing.None? ==> r == Failure(ReadDirFailed)
    ensures r.Success? ==> "/" in r.value
    ensures listing.Some? ==>
      (CompileAll(dir, listing.value, files, render, execute).Failure? ==>
        r == Failure(CompileAll(dir, listing.value, files, render, execute).error))
    ensures listing.Some? && CompileAll(dir, listing.value, files, render, execute).Success? ==>
      (r.Success? <==> RenderIndex(CompileAll(dir, listing.value, files, render, execute).value, index).Some?)
    ensures listing.Some? && CompileAll(dir, listing.value, files, render, execute).Success? && r.Failure? ==>
      r.error == IndexFailed
  {
    match listing
    case None => Failure(ReadDirFailed)
    case Some(names) =>
      match CompileAll(dir, names, files, render, execute)
      case Failure(e) => Failure(e)
      case Success(pages) =>
        match RenderIndex(pages, index)
        case None => Failure(IndexFailed)
        case Some(home) => Success(Collect(pages)["/" := home])
  }

  /** The build aborts at the first entry that fails to open or compile,
      with that entry's error and no content map. */
  lemma ParseStopsAtFirstError(dir: string, names: seq<string>, files: map<string, string>,
                               render: Renderer, execute: PageTemplate, index: IndexTemplate, i: int)
    requires 0 <= i < |names|
    requires CompileFile(dir, names[i], files, render, execute).Failure?
    requires forall j :: 0 <= j < i ==> CompileFile(dir, names[j], files, render, execute).Success?
    ensures Parse(dir, Some(names), files, render, execute, index)
         == Failure(CompileFile(dir, names[i], files, render, execute).error)
  {
    var r := CompileAll(dir, names, files, render, execute);
    var k :| 0 <= k < |names|
      && CompileFile(dir, names[k], files, render, execute) == Failure(r.error)
      && forall j :: 0 <= j < k ==> CompileFile(dir, names[j], files, render, execute).Success?;
    assert k == i;
  }

  /** A successful build serves the listing at "/" and every compiled page
      at its path, with the last page winning on a repeated path; nothing
      else is in the map. */
  lemma ParseContents(dir: string, names: seq<string>, files: map<string, string>,
                      render: Renderer, execute: PageTemplate, index: IndexTemplate)
    requires Parse(dir, Some(names), files, render, execute, index).Success?
    ensures CompileAll(dir, names, files, render, execute).Success?
    ensures var m := Parse(dir, Some(names), files, render, execute, index).value;
            var pages := CompileAll(dir, names, files, render, execute).value;
      && Some(m["/"]) == index(SortLatestFirst(pages))
      && (forall k :: k in m <==> k == "/" || exists i :: 0 <= i < |pages| && pages[i].path == k)
      && (forall i :: 0 <= i < |pages| && LastOfPath(pages, i) ==> m[pages[i].path] == pages[i].content)
  {
    var pages := CompileAll(dir, names, files, render, execute).value;
    CollectLastWins(pages);
    forall i | 0 <= i < |pages|
      ensures pages[i].path != "/"
    {
      var path := JoinPath(dir, names[i]);
      assert ParsePage(path, files[path], render, execute) == Success(pages[i]);
    }
  }
}

=== FILE: filepath.dfy ===
/** filepath.Base for a Unix host, as page parsing uses it to drop the
    directory part of an article's file name. */
module FilePath {

  /** The last element of `path`: trailing slashes are removed first; the
      empty path gives "." and a path of slashes only gives "/". */
  function Base(path: string): (r: string)
    ensures r != []
    ensures r == "/" || '/' !in r
  {
    if path == [] then "."
    else
      var trimmed := TrimSlashes(path);
      if trimmed == [] then "/" else LastElement(trimmed)
  }

  /** `p` without its trailing slashes. */
  function TrimSlashes(p: string): (r: string)
    ensures r <= p
    ensures r == [] || r[|r| - 1] != '/'
  {
    if p != [] && p[|p| - 1] == '/' then TrimSlashes(p[..|p| - 1]) else p
  }

  /** The part of `p` after its last slash (all of `p` if it has none). */
  function LastElement(p: string): (r: string)
    ensures '/' !in r
    ensures p != [] && p[|p| - 1] != '/' ==> r != []
  {
    if p == [] || p[|p| - 1] == '/' then [] else LastElement(p[..|p| - 1]) + [p[|p| - 1]]
  }

  lemma {:induction false} LastElementAfterSlash(prefix: string, name: string)
    requires prefix == [] || prefix[|prefix| - 1] == '/'
    requires '/' !in name
    ensures LastElement(prefix + name) == name
  {
    if name != [] {
      var p := prefix + name;
      assert p[..|p| - 1] == prefix + name[..|name| - 1];
      LastElementAfterSlash(prefix, name[..|name| - 1]);
      assert name == name[..|name| - 1] + [name[|name| - 1]];
    } else {
      assert prefix + name == prefix;
    }
  }

  /** A directory part in front of a slash-free name has no effect on the
      base name, and such a name is its own base name. */
  lemma BaseIgnoresDirectory(dir: string, name: string)
    requires name != [] && '/' !in name
    ensures Base(dir + "/" + name) == name
    ensures Base(name) == name
  {
    var joined := dir + "/" + name;
    assert joined[|joined| - 1] == name[|name| - 1];
    LastElementAfterSlash(dir + "/", name);
    LastElementAfterSlash([], name);
    assert [] + name == name;
  }
}

=== FILE: http_mux.dfy ===
/** The dispatcher of http.go (Mux.ServeHTTP): the /metrics gate, then the
    host gate, then the content index BEFORE the alias table, then the
    static file server. */
module HttpMux {
  import opened Text
  import opened Serving
  import MainMux

  /** The dispatcher's configuration, as in main.go. */
  datatype Mux = Mux(host: string, bearerToken: string, alias: map<string, string>, content: map<string, Bytes>)

  /** Mux.ServeHTTP. */
  function Dispatch(m: Mux, r: Request): (resp: Response)
    ensures resp.Status? ==> resp.code == Unauthorized || resp.code == NotFound
    ensures resp.Redirect? ==> resp.code == TemporaryRedirect
    ensures resp == Metrics || resp == Panic ==> r.path == MetricsPath
    ensures resp.Redirect? ==> r.path in m.alias && r.path !in m.content
  {
    if r.path == MetricsPath then MetricsGate(r.authorization, m.bearerToken)
    else if r.host != m.host then Status(NotFound)
    else if r.path in m.content then Body(m.content[r.path])
    else if r.path in m.alias then Redirect(WithQuery(m.alias[r.path], r.rawQuery), TemporaryRedirect)
    else Static
  }

  /** /metrics is decided by the Authorization header alone, whatever the
      host: exactly two space-separated chunks with the second equal to
      the token reach the handler, and a 401 is written only for a header
      that has a space but not the token. */
  lemma MetricsIgnoresHost(m: Mux, r: Request, otherHost: string)
    requires r.path == MetricsPath
    ensures Dispatch(m, r) == Dispatch(m, r.(host := otherHost))
    ensures Dispatch(m, r) == Metrics <==> exists scheme :: Credentials(r.authorization, scheme, m.bearerToken)
    ensures Dispatch(m, r) == Status(Unauthorized) <==>
      ' ' in r.authorization && !exists scheme :: Credentials(r.authorization, scheme, m.bearerToken)
  {
    MetricsGateAdmits(r.authorization, m.bearerToken);
    MetricsGatePanics(r.authorization, m.bearerToken);
  }

  /** A foreign host gets 404 on every other path, before any lookup. */
  lemma ForeignHostNotFound(m: Mux, r: Request)
    requires r.path != MetricsPath && r.host != m.host
    ensures Dispatch(m, r) == Status(NotFound)
  {
  }

  /** Articles are never shadowed: a path in the content index is served
      from it even when the alias table also has it. */
  lemma ContentBeforeAlias(m: Mux, r: Request)
    requires r.path != MetricsPath && r.host == m.host && r.path in m.content
    ensures Dispatch(m, r) == Body(m.content[r.path])
  {
  }

  /** An alias hit without a content hit is a 307 to
      the alias target, with "?" and the raw query appended only when the
      query is non-empty; when neither holds a delimiter, the client reads
      back the target and the query. */
  lemma AliasRedirectKeepsQuery(m: Mux, r: Request)
    requires r.path != MetricsPath && r.host == m.host && r.path !in m.content && r.path in m.alias
    ensures Dispatch(m, r).Redirect? && Dispatch(m, r).code == TemporaryRedirect
    ensures r.rawQuery == [] ==> Dispatch(m, r).target == m.alias[r.path]
    ensures r.rawQuery != [] ==> Dispatch(m, r).target == m.alias[r.path] + "?" + r.rawQuery
    ensures '?' !in m.alias[r.path] && '#' !in m.alias[r.path] && '#' !in r.rawQuery ==>
      ReadLocation(Dispatch(m, r).target) == (m.alias[r.path], r.rawQuery)
  {
    if '?' !in m.alias[r.path] && '#' !in m.alias[r.path] && '#' !in r.rawQuery {
      WithQueryRoundTrip(m.alias[r.path], r.rawQuery);
    }
  }

  /** The static server is reached exactly when the path is in neither
      table (on the configured host, off /metrics). */
  lemma StaticOnlyWhenUnmatched(m: Mux, r: Request)
    ensures Dispatch(m, r) == Static <==>
      r.path != MetricsPath && r.host == m.host && r.path !in m.content && r.path !in m.alias
  {
    if r.path == MetricsPath {
      assert Dispatch(m, r) in {Metrics, Status(Unauthorized), Panic};
    }
  }

  /** The two dispatchers answer every request alike, except a request on
      the configured host for a path that is in both tables: main.go
      redirects it, http.go serves the content. */
  lemma VariantsDifferOnlyOnShadowedPaths(m: Mux, r: Request)
    ensures var asMain := MainMux.Mux(m.host, m.bearerToken, m.alias, m.content);
      Dispatch(m, r) != MainMux.Dispatch(asMain, r) <==>
        r.path != MetricsPath && r.host == m.host && r.path in m.content && r.path in m.alias
  {
  }

  /** The status the deferred observer records (ResponseWriter.StatusCode):
      the code of the handler's last WriteHeader, else 200, so a request
      that panicked in the /metrics gate is counted as 200. */
  lemma ObservedStatusOfDispatch(m: Mux, r: Request, delegated: seq<int>)
    ensures Dispatch(m, r).Status? ==> ObservedStatus(Dispatch(m, r), delegated) == Dispatch(m, r).code
    ensures Dispatch(m, r).Redirect? ==> ObservedStatus(Dispatch(m, r), delegated) == TemporaryRedirect
    ensures Dispatch(m, r).Body? || Dispatch(m, r) == Panic ==> ObservedStatus(Dispatch(m, r), delegated) == OK
    ensures (Dispatch(m, r) == Metrics || Dispatch(m, r) == Static) && delegated == [] ==>
      ObservedStatus(Dispatch(m, r), delegated) == OK
  {
    StatusCodeIsLastWrite(HeaderCalls(Dispatch(m, r), delegated));
  }
}

=== FILE: main_mux.dfy ===
/** The dispatcher of main.go (mux.ServeHTTP): the /metrics gate, then the
    host gate, then the alias table BEFORE the content index, then the
    static file server. */
module MainMux {
  import opened Text
  import opened Serving

  /** The dispatcher's configuration; `content` is the compiled content
      index (the field d in the source). The static and metrics handlers
      are external and appear only as the Static and Metrics outcomes. */
  datatype Mux = Mux(host: string, bearerToken: string, alias: map<string, string>, content: map<string, Bytes>)

  /** mux.ServeHTTP. */
  function Dispatch(m: Mux, r: Request): (resp: Response)
    ensures resp.Status? ==> resp.code == Unauthorized || resp.code == NotFound
    ensures resp.Redirect? ==> resp.code == TemporaryRedirect
    ensures resp == Metrics || resp == Panic ==> r.path == MetricsPath
    ensures resp.Body? ==> r.path in m.content && resp.bytes == m.content[r.path]
  {
    if r.path == MetricsPath then MetricsGate(r.authorization, m.bearerToken)
    else if r.host != m.host then Status(NotFound)
    else if r.path in m.alias then Redirect(WithQuery(m.alias[r.path], r.rawQuery), TemporaryRedirect)
    else if r.path in m.content then Body(m.content[r.path])
    else Static
  }

  /** /metrics is decided by the Authorization header alone, whatever the
      host: the handler is reached exactly for "<word> <bearerToken>". */
  lemma MetricsIgnoresHost(m: Mux, r: Request, otherHost: string)
    requires r.path == MetricsPath
    ensures Dispatch(m, r) == Dispatch(m, r.(host := otherHost))
    ensures Dispatch(m, r) == Metrics <==> exists scheme :: Credentials(r.authorization, scheme, m.bearerToken)
    ensures Dispatch(m, r) == Panic <==> ' ' !in r.authorization
  {
    MetricsGateAdmits(r.authorization, m.bearerToken);
    MetricsGatePanics(r.authorization, m.bearerToken);
  }

  /** Every other path on a foreign host gets 404, even one in the content
      index or the alias table. */
  lemma ForeignHostNotFound(m: Mux, r: Request)
    requires r.path != MetricsPath && r.host != m.host
    ensures Dispatch(m, r) == Status(NotFound)
  {
  }

  /** An alias wins over content for the same path: it is a 307 to
      the alias target, with "?" and the raw query appended only when the
      query is non-empty; when neither holds a delimiter, the client reads
      back the target and the query. */
  lemma AliasBeforeContent(m: Mux, r: Request)
    requires r.path != MetricsPath && r.host == m.host && r.path in m.alias
    ensures Dispatch(m, r).Redirect? && Dispatch(m, r).code == TemporaryRedirect
    ensures r.rawQuery == [] ==> Dispatch(m, r).target == m.alias[r.path]
    ensures r.rawQuery != [] ==> Dispatch(m, r).target == m.alias[r.path] + "?" + r.rawQuery
    ensures '?' !in m.alias[r.path] && '#' !in m.alias[r.path] && '#' !in r.rawQuery ==>
      ReadLocation(Dispatch(m, r).target) == (m.alias[r.path], r.rawQuery)
  {
    if '?' !in m.alias[r.path] && '#' !in m.alias[r.path] && '#' !in r.rawQuery {
      WithQueryRoundTrip(m.alias[r.path], r.rawQuery);
    }
  }

  /** Content is written verbatim exactly for an unaliased path of the
      index on the configured host, and the static server is reached
      exactly when neither table has the path. */
  lemma ContentThenStatic(m: Mux, r: Request)
    ensures Dispatch(m, r).Body? <==>
      r.path != MetricsPath && r.host == m.host && r.path !in m.alias && r.path in m.content
    ensures Dispatch(m, r) == Static <==>
      r.path != MetricsPath && r.host == m.host && r.path !in m.alias && r.path !in m.content
  {
    if r.path == MetricsPath {
      assert Dispatch(m, r) in {Metrics, Status(Unauthorized), Panic};
    }
  }

  /** The status the latency/count observer records: 404 for a foreign
      host, 307 for an alias, 200 for content, and also 200 for a request
      that panicked in the /metrics gate, since the deferred observer runs
      before WriteHeader was ever called. */
  lemma ObservedStatusOfDispatch(m: Mux, r: Request, delegated: seq<int>)
    ensures Dispatch(m, r).Status? ==> ObservedStatus(Dispatch(m, r), delegated) == Dispatch(m, r).code
    ensures Dispatch(m, r).Redirect? ==> ObservedStatus(Dispatch(m, r), delegated) == TemporaryRedirect
    ensures Dispatch(m, r).Body? || Dispatch(m, r) == Panic ==> ObservedStatus(Dispatch(m, r), delegated) == OK
  {
    StatusCodeIsLastWrite(HeaderCalls(Dispatch(m, r), delegated));
  }
}

=== FILE: page.dfy ===
/** Compilation of one article file (page.go): the URL path and date come
    from the file's base name `yyyy-mm-dd-slug`, the title is line 1 of the
    file, line 2 is skipped, and the rest is markdown. The markdown renderer
    and the page template are parameters of the model. */
module PageParser {
  import opened Wrappers
  import opened Text
  import opened Calendar
  import FilePath

  /** A compiled article: URL path, title, date and the rendered document. */
  datatype Page = Page(path: string, title: string, date: Date, content: Bytes)

  datatype PageError =
    | NoDateInName            // the base name does not start with yyyy-mm-dd
    | BadDate(reason: DateError)  // time.Parse refused the date
    | TemplateFailed          // executing the page template failed

  /** The markdown-to-HTML transform (blackfriday.Run). */
  type Renderer = string -> string

  /** Execution of the page template on (title, HTML body, date); None when
      it fails. */
  type PageTemplate = (string, string, Date) -> Option<Bytes>

  /** The base name matches ^[0-9]{4}-[0-9]{2}-[0-9]{2}. */
  predicate HasDatePrefix(name: string) {
    |name| >= 10 && Shaped(name[..10], '-')
  }

  /** findDate(name, 1): the match of the anchored pattern, if any: the
      one prefix of the name that has the yyyy-mm-dd shape. */
  function FindDate(name: string): (r: Option<string>)
    ensures r.Some? ==> r.value <= name && Shaped(r.value, '-')
    ensures r.None? <==> forall k :: 0 <= k <= |name| ==> !Shaped(name[..k], '-')
  {
    if HasDatePrefix(name) then Some(name[..10]) else None
  }

  /** What the base name determines about a page. */
  datatype Header = Header(path: string, date: Date)

  /** Replacing the dashes of a dash-shaped date by slashes gives the slash
      layout, and a date formatting to the latter formats to the former. */
  lemma SwapSeparator(prefix: string, d: Date)
    requires Shaped(prefix, '-')
    ensures Shaped(ReplaceAll(prefix, '-', '/'), '/')
    ensures 0 <= d.year && 0 <= d.month && 0 <= d.day ==>
      (Format(d, '/') == ReplaceAll(prefix, '-', '/') <==> Format(d, '-') == prefix)
  {
    var slashed := ReplaceAll(prefix, '-', '/');
    assert slashed[..4] == prefix[..4];
    assert slashed[5..7] == prefix[5..7];
    assert slashed[8..] == prefix[8..];
    if 0 <= d.year && 0 <= d.month && 0 <= d.day {
      var ds, dd := Format(d, '/'), Format(d, '-');
      assert forall i :: 0 <= i < 10 && i != 4 && i != 7 ==> ds[i] == dd[i];
      if ds == slashed {
        assert forall i :: 0 <= i < 10 ==> dd[i] == prefix[i];
      }
      if dd == prefix {
        assert forall i :: 0 <= i < 10 ==> ds[i] == slashed[i];
      }
    }
  }

  /** The path and date page.go derives from a base name: the date prefix
      yyyy-mm-dd becomes /yyyy/mm/dd/, followed by the name without its
      "yyyy-mm-dd-" prefix (the whole name if the date is not followed by a
      dash). */
  function NameHeader(name: string): (r: Result<Header, PageError>)
    ensures r == Failure(NoDateInName) <==> !HasDatePrefix(name)
    ensures r.Success? ==> ValidDate(r.value.date) && Format(r.value.date, '-') == name[..10]
    ensures r.Success? ==> |r.value.path| >= 12 && r.value.path[..12] == "/" + Format(r.value.date, '/') + "/"
    ensures HasDatePrefix(name) ==>
      (r.Success? <==> exists d :: ValidDate(d) && Format(d, '-') == name[..10])
    ensures HasDatePrefix(name) && r.Failure? ==>
      r.error.BadDate? && r.error.reason != Malformed
  {
    match FindDate(name)
    case None => Failure(NoDateInName)
    case Some(prefix) =>
      var dateStr := ReplaceAll(prefix, '-', '/');
      SwapSeparator(prefix, Date(0, 0, 0));
      match ParseDate(dateStr)
      case Failure(e) =>
        assert forall d :: ValidDate(d) ==> Format(d, '-') != prefix by {
          forall d | ValidDate(d)
            ensures Format(d, '-') != prefix
          {
            SwapSeparator(prefix, d);
            if Format(d, '-') == prefix {
              ParseFormatted(d);
            }
          }
        }
        Failure(BadDate(e))
      case Success(date) =>
        SwapSeparator(prefix, date);
        var path := "/" + dateStr + "/" + TrimPrefix(name, prefix + "-");
        assert path[..12] == "/" + dateStr + "/";
        Success(Header(path, date))
  }

  /** `line` without one trailing carriage return. */
  function DropCR(line: string): string {
    if line != [] && line[|line| - 1] == '\r' then line[..|line| - 1] else line
  }

  /** bufio.Reader.ReadLine on the unread input `s`: None at end of input,
      otherwise the line without its "\n" or "\r\n" and the input after it.
      A last line without a newline is returned whole. */
  function ReadLine(s: string): (r: Option<(string, string)>)
    ensures r.None? <==> s == []
    ensures r.Some? ==> '\n' !in r.value.0
    ensures r.Some? ==>
      || s == r.value.0 + "\n" + r.value.1
      || s == r.value.0 + "\r\n" + r.value.1
      || (s == r.value.0 && r.value.1 == [])
  {
    if s == [] then None
    else
      var i := IndexOf(s, '\n');
      if i == |s| then Some((s, ""))
      else Some((DropCR(s[..i]), s[i + 1..]))
  }

  /** A line read is a prefix of the input, and the input after it is a
      proper suffix. */
  lemma LineIsPrefix(s: string)
    requires ReadLine(s).Some?
    ensures ReadLine(s).value.0 <= s
    ensures var rest := ReadLine(s).value.1;
      |rest| < |s| && s[|s| - |rest|..] == rest
  {
    var (line, rest) := ReadLine(s).value;
    if s == line + "\n" + rest {
      assert s[..|line|] == line && s[|s| - |rest|..] == rest;
    } else if s == line + "\r\n" + rest {
      assert s[..|line|] == line && s[|s| - |rest|..] == rest;
    }
  }

  /** The title line and, if the file has a second line, everything after
      that second line. */
  datatype PageText = PageText(title: string, body: Option<string>)

  /** The metadata loop of parsePage: line 1 is the title (empty for an
      empty file); line 2 is read and dropped; the body is what remains
      after it, present only if a second line was read. */
  function ReadPage(input: string): (t: PageText)
    ensures '\n' !in t.title && t.title <= input
    ensures t.body.Some? ==> |t.body.value| < |input| && input[|input| - |t.body.value|..] == t.body.value
  {
    match ReadLine(input)
    case None => PageText("", None)
    case Some((title, afterTitle)) =>
      LineIsPrefix(input);
      match ReadLine(afterTitle)
      case None => PageText(title, None)
      case Some((_, afterDate)) =>
        LineIsPrefix(afterTitle);
        assert input[|input| - |afterTitle|..][|afterTitle| - |afterDate|..] == input[|input| - |afterDate|..];
        PageText(title, Some(afterDate))
  }

  /** The HTML body handed to the template: the rendered body, or empty
      when the file has no second line. */
  function Markdown(text: PageText, render: Renderer): string {
    if text.body.Some? then render(text.body.value) else ""
  }

  /** parsePage(name, input). */
  function ParsePage(name: string, input: string, render: Renderer, execute: PageTemplate): (r: Result<Page, PageError>)
    ensures r == Failure(NoDateInName) <==> !HasDatePrefix(FilePath.Base(name))
    ensures r.Success? ==>
      ValidDate(r.value.date) && Format(r.value.date, '-') == FilePath.Base(name)[..10]
    ensures r.Success? ==>
      |r.value.path| >= 12 && r.value.path[..12] == "/" + Format(r.value.date, '/') + "/"
    ensures r.Success? ==> r.value.title == ReadPage(input).title
    ensures r.Success? ==>
      execute(r.value.title, Markdown(ReadPage(input), render), r.value.date) == Some(r.value.content)
    ensures NameHeader(FilePath.Base(name)).Success? ==>
      (r == Failure(TemplateFailed) <==>
        execute(ReadPage(input).title, Markdown(ReadPage(input), render), NameHeader(FilePath.Base(name)).value.date).None?)
  {
    match NameHeader(FilePath.Base(name))
    case Failure(e) => Failure(e)
    case Success(h) =>
      var text := ReadPage(input);
      match execute(text.title, Markdown(text, render), h.date)
      case None => Failure(TemplateFailed)
      case Some(content) => Success(Page(h.path, text.title, h.date, content))
  }

  /** Only the base name matters: a directory in front of it changes
      nothing. */
  lemma ParsePageIgnoresDirectory(dir: string, name: string, input: string, render: Renderer, execute: PageTemplate)
    requires name != [] && '/' !in name
    ensures ParsePage(dir + "/" + name, input, render, execute) == ParsePage(name, input, render, execute)
  {
    FilePath.BaseIgnoresDirectory(dir, name);
  }

  /** A name starting with a real date compiles its header from that date. */
  lemma HeaderOfDatedName(name: string, date: Date)
    requires ValidDate(date)
    requires |name| >= 10 && name[..10] == Format(date, '-')
    ensures NameHeader(name)
      == Success(Header("/" + Format(date, '/') + "/" + TrimPrefix(name, Format(date, '-') + "-"), date))
  {
    var prefix := Format(date, '-');
    assert HasDatePrefix(name);
    SwapSeparator(prefix, date);
    ParseFormatted(date);
  }

  /** For `yyyy-mm-dd-slug` naming a real date, the path is
      /yyyy/mm/dd/slug with the slug (and its extension) kept. */
  lemma PathOfDatedName(date: Date, slug: string)
    requires ValidDate(date)
    ensures NameHeader(Format(date, '-') + "-" + slug)
      == Success(Header("/" + Format(date, '/') + "/" + slug, date))
  {
    var prefix := Format(date, '-');
    var name := prefix + "-" + slug;
    assert name[..10] == prefix;
    HeaderOfDatedName(name, date);
    assert prefix + "-" <= name;
    assert name[11..] == slug;
  }

  /** When the date is not followed by a dash the whole name is kept:
      the path is /yyyy/mm/dd/ followed by the full name. */
  lemma PathOfUndashedName(date: Date, rest: string)
    requires ValidDate(date)
    requires rest == [] || rest[0] != '-'
    ensures NameHeader(Format(date, '-') + rest)
      == Success(Header("/" + Format(date, '/') + "/" + Format(date, '-') + rest, date))
  {
    var prefix := Format(date, '-');
    var name := prefix + rest;
    assert name[..10] == prefix;
    HeaderOfDatedName(name, date);
    UndashedKept(prefix, rest);
    assert "/" + Format(date, '/') + "/" + name == "/" + Format(date, '/') + "/" + prefix + rest;
  }

  /** TrimPrefix(prefix + rest, prefix + "-") removes nothing when `rest`
      does not start with a dash. */
  lemma UndashedKept(prefix: string, rest: string)
    requires rest == [] || rest[0] != '-'
    ensures TrimPrefix(prefix + rest, prefix + "-") == prefix + rest
  {
    var name, dashed := prefix + rest, prefix + "-";
    if rest == [] {
      assert |dashed| > |name|;
    } else {
      assert name[|prefix|] == rest[0] != '-' == dashed[|prefix|];
    }
  }

  /** A dated article end to end: a file `yyyy-mm-dd-slug` whose first two
      lines are a title and a discarded line compiles to the page at
      /yyyy/mm/dd/slug titled by line 1, holding the template's output on
      the rendered rest, and fails with TemplateFailed exactly when the
      template fails. */
  lemma CompiledArticle(date: Date, slug: string, l1: string, l2: string, rest: string,
                        render: Renderer, execute: PageTemplate)
    requires ValidDate(date) && '/' !in slug
    requires '\n' !in l1 && '\n' !in l2 && (l1 == [] || l1[|l1| - 1] != '\r')
    ensures var r := ParsePage(Format(date, '-') + "-" + slug, l1 + "\n" + l2 + "\n" + rest, render, execute);
            var out := execute(l1, render(rest), date);
      && (out.Some? ==> r == Success(Page("/" + Format(date, '/') + "/" + slug, l1, date, out.value)))
      && (out.None? ==> r == Failure(TemplateFailed))
  {
    var name := Format(date, '-') + "-" + slug;
    assert '/' !in Format(date, '-') by {
      var y, m, d := Digits(date.year, 4), Digits(date.month, 2), Digits(date.day, 2);
      assert forall i :: 0 <= i < |y| ==> y[i] != '/';
      assert forall i :: 0 <= i < |m| ==> m[i] != '/';
      assert forall i :: 0 <= i < |d| ==> d[i] != '/';
    }
    FilePath.BaseIgnoresDirectory("", name);
    PathOfDatedName(date, slug);
    TwoLines(l1, l2, rest);
    assert DropCR(l1) == l1;
  }

  /** A date not followed by a dash: the compiled page keeps the whole name
      after /yyyy/mm/dd/. */
  lemma CompiledUndashed(date: Date, rest: string, input: string, render: Renderer, execute: PageTemplate)
    requires ValidDate(date) && '/' !in rest && (rest == [] || rest[0] != '-')
    ensures var r := ParsePage(Format(date, '-') + rest, input, render, execute);
      && (r.Success? <==> execute(ReadPage(input).title, Markdown(ReadPage(input), render), date).Some?)
      && (r.Success? ==> r.value.path == "/" + Format(date, '/') + "/" + Format(date, '-') + rest && r.value.date == date)
  {
    var name := Format(date, '-') + rest;
    assert '/' !in Format(date, '-') by {
      var y, m, d := Digits(date.year, 4), Digits(date.month, 2), Digits(date.day, 2);
      assert forall i :: 0 <= i < |y| ==> y[i] != '/';
      assert forall i :: 0 <= i < |m| ==> m[i] != '/';
      assert forall i :: 0 <= i < |d| ==> d[i] != '/';
    }
    FilePath.BaseIgnoresDirectory("", name);
    PathOfUndashedName(date, rest);
  }

  /** Whether a page compiles as far as its name goes, and to which path and
      date, does not depend on the file's contents. */
  lemma HeaderIndependentOfInput(name: string, in1: string, in2: string, render: Renderer, execute: PageTemplate)
    ensures var r1, r2 := ParsePage(name, in1, render, execute), ParsePage(name, in2, render, execute);
      && (r1.Failure? && r1.error != TemplateFailed ==> r2 == r1)
      && (r1.Success? && r2.Success? ==> r1.value.path == r2.value.path && r1.value.date == r2.value.date)
  {
  }

  /** A file whose first line ends in "\n" or "\r\n" has that line as its
      title. */
  lemma TitleIsFirstLine(line: string, eol: string, rest: string)
    requires '\n' !in line
    requires eol == "\r\n" || (eol == "\n" && (line == [] || line[|line| - 1] != '\r'))
    ensures ReadPage(line + eol + rest).title == line
  {
    var s := line + eol + rest;
    if eol == "\n" {
      IndexOfAfter(line, '\n', rest);
      assert s[..|line|] == line;
    } else {
      var cr := line + "\r";
      assert s == cr + "\n" + rest;
      IndexOfAfter(cr, '\n', rest);
      assert s[..|cr|] == cr;
      assert DropCR(cr) == line;
    }
  }

  /** A file without any newline is all title and has no body; the empty
      file has an empty title. */
  lemma SingleLinePage(input: string)
    requires '\n' !in input
    ensures ReadPage(input) == PageText(input, None)
  {
    assert forall j :: 0 <= j < |input| ==> input[j] != '\n';
  }

  /** The second line is consumed: the body is exactly what follows it, so
      the second line's contents never affect the compiled page, whether or
      not the second line ends the file without a newline. */
  lemma SecondLineDiscarded(name: string, l1: string, l2: string, l2': string, rest: string,
                            render: Renderer, execute: PageTemplate)
    requires '\n' !in l1 && '\n' !in l2 && '\n' !in l2'
    ensures ReadPage(l1 + "\n" + l2 + "\n" + rest).body == Some(rest)
    ensures ParsePage(name, l1 + "\n" + l2 + "\n" + rest, render, execute)
         == ParsePage(name, l1 + "\n" + l2' + "\n" + rest, render, execute)
    ensures l2 != [] ==>
      ParsePage(name, l1 + "\n" + l2, render, execute) == ParsePage(name, l1 + "\n" + l2' + "\n", render, execute)
  {
    TwoLines(l1, l2, rest);
    TwoLines(l1, l2', rest);
    if l2 != [] {
      LastLineLikeTerminated(l1, l2, l2');
    }
  }

  /** An unterminated last second line reads like a terminated one with
      nothing after it. */
  lemma LastLineLikeTerminated(l1: string, l2: string, l2': string)
    requires '\n' !in l1 && '\n' !in l2 && '\n' !in l2' && l2 != []
    ensures ReadPage(l1 + "\n" + l2) == ReadPage(l1 + "\n" + l2' + "\n")
  {
    TwoLines(l1, l2', []);
    assert l1 + "\n" + l2' + "\n" + [] == l1 + "\n" + l2' + "\n";
    LastSecondLine(l1, l2);
  }

  /** A second line that ends the file without a newline is read and
      dropped like any other: the body is present and empty. */
  lemma LastSecondLine(l1: string, l2: string)
    requires '\n' !in l1 && '\n' !in l2 && l2 != []
    ensures ReadPage(l1 + "\n" + l2) == PageText(DropCR(l1), Some([]))
  {
    var s := l1 + "\n" + l2;
    IndexOfAfter(l1, '\n', l2);
    assert s[..|l1|] == l1;
    assert s[|l1| + 1..] == l2;
    assert forall j :: 0 <= j < |l2| ==> l2[j] != '\n';
  }

  /** Two newline-terminated lines: the first is the title, and the body is
      what follows the second. */
  lemma TwoLines(l1: string, m: string, rest: string)
    requires '\n' !in l1 && '\n' !in m
    ensures ReadPage(l1 + "\n" + m + "\n" + rest) == PageText(DropCR(l1), Some(rest))
  {
    var s := l1 + "\n" + m + "\n" + rest;
    var after := m + "\n" + rest;
    assert s == l1 + "\n" + after;
    IndexOfAfter(l1, '\n', after);
    assert s[..|l1|] == l1;
    assert s[|l1| + 1..] == after;
    IndexOfAfter(m, '\n', rest);
    assert after[|m| + 1..] == rest;
  }

  /** A body exists exactly when some newline is followed by more input,
      that is, when the file has a second line. */
  lemma BodyIffSecondLine(input: string)
    ensures ReadPage(input).body.Some? <==> exists i :: 0 <= i < |input| - 1 && input[i] == '\n'
  {
    if input == [] {
      return;
    }
    var i := IndexOf(input, '\n');
    if i == |input| {
      assert forall j :: 0 <= j < |input| ==> input[j] != '\n';
    } else {
      var after := input[i + 1..];
      assert forall j :: 0 <= j < i ==> input[j] != '\n';
      if after == [] {
        assert i == |input| - 1;
      } else {
        assert input[i] == '\n' && i < |input| - 1;
      }
    }
  }

  /** The markdown renderer is consulted only for a file with a second
      line, and then only on the text after it. */
  lemma RendererSeesOnlyBody(name: string, input: string, render1: Renderer, render2: Renderer, execute: PageTemplate)
    requires ReadPage(input).body.None? || render1(ReadPage(input).body.value) == render2(ReadPage(input).body.value)
    ensures ParsePage(name, input, render1, execute) == ParsePage(name, input, render2, execute)
  {
  }
}

=== FILE: plain_fs.dfy ===
/** The non-caching FileSystem wrapper of main.go: files pass through, and
    a directory opens only if its index.html opens too. */
module PlainFs {
  import opened Wrappers
  import opened UnderlyingFs

  /** FileSystem.Open(path) in main.go. The Stat error the source ignores is
      not modelled: every opened path has its stat. */
  function Open(disk: Disk, path: string): (r: Result<Node, FsError>)
    ensures r.Success? ==> path in disk && r.value == disk[path]
    ensures r.Success? <==> path in disk && (disk[path].info.isDir ==> IndexPath(path) in disk)
  {
    match OpenDisk(disk, path)
    case Failure(e) => Failure(e)
    case Success(f) =>
      if f.info.isDir then
        match OpenDisk(disk, IndexPath(path))
        case Failure(e) => Failure(e)
        case Success(_) => Success(f)
      else Success(f)
  }

  /** Files pass through unchanged, errors included; a directory without
      an index fails with the error of opening the index. */
  lemma OpenPassesThrough(disk: Disk, path: string)
    ensures !(path in disk && disk[path].info.isDir) ==> Open(disk, path) == OpenDisk(disk, path)
    ensures path in disk && disk[path].info.isDir && IndexPath(path) !in disk ==>
      Open(disk, path) == Failure(NotExist(IndexPath(path)))
  {
  }

  /** A directory opens, with or without a trailing slash, exactly when the
      index.html directly inside it can be opened. */
  lemma DirectoryNeedsIndex(disk: Disk, dir: string)
    requires dir == [] || dir[|dir| - 1] != '/'
    requires dir in disk && disk[dir].info.isDir
    requires dir + "/" in disk && disk[dir + "/"].info.isDir
    ensures Open(disk, dir).Success? <==> dir + "/index.html" in disk
    ensures Open(disk, dir + "/").Success? <==> dir + "/index.html" in disk
  {
    IndexPathOfDirectory(dir);
  }
}

=== FILE: serving.dfy ===
/** What both request dispatchers share (main.go and http.go): the request
    and response shapes, the bearer-token gate of /metrics, redirect targets
    with the query re-appended, the HTTP-to-HTTPS redirect handler, and the
    status-capturing response writer the metrics observer reads. */
module Serving {
  import opened Text

  /** The parts of an http.Request the dispatchers read. A missing
      Authorization header reads as "" (Header.Get). */
  datatype Request = Request(verb: string, host: string, path: string, rawQuery: string, authorization: string)

  /** How a request is answered. */
  datatype Response =
    | Status(code: int)                   // WriteHeader(code), no body
    | Body(bytes: Bytes)                  // the bytes written verbatim, implicit 200
    | Redirect(target: string, code: int) // http.Redirect(w, r, target, code)
    | Metrics                             // delegated to the metrics handler
    | Static                              // delegated to the static file server
    | Panic                               // the handler panics (index out of range)

  const OK := 200
  const TemporaryRedirect := 307
  const Unauthorized := 401
  const NotFound := 404

  const MetricsPath := "/metrics"

  /** `target`, with "?" and the raw query appended when the query is
      non-empty. */
  function WithQuery(target: string, rawQuery: string): string {
    if |rawQuery| > 0 then target + "?" + rawQuery else target
  }

  /** `url` without its fragment: the part before the first '#'. */
  function FragmentFree(url: string): (sent: string)
    ensures '#' !in sent && sent <= url
    ensures '#' !in url ==> sent == url
  {
    url[..IndexOf(url, '#')]
  }

  /** How a client reads a Location (section 3.5 of RFC 3986): everything
      from the first '#' on is a fragment that is never sent; what remains
      is the part before its first '?' and the raw query after it. */
  function ReadLocation(url: string): (string, string) {
    var sent := FragmentFree(url);
    var i := IndexOf(sent, '?');
    if i == |sent| then (sent, "") else (sent[..i], sent[i + 1..])
  }

  /** A target free of '?' and '#' with a '#'-free query appended reads
      back as that target and that query. */
  lemma WithQueryRoundTrip(target: string, rawQuery: string)
    requires '?' !in target && '#' !in target && '#' !in rawQuery
    ensures ('?' in WithQuery(target, rawQuery)) <==> rawQuery != []
    ensures ReadLocation(WithQuery(target, rawQuery)) == (target, rawQuery)
  {
    assert '#' !in WithQuery(target, rawQuery);
    if |rawQuery| > 0 {
      IndexOfAfter(target, '?', rawQuery);
      var url := target + "?" + rawQuery;
      assert url[..|target|] == target;
      assert url[|target| + 1..] == rawQuery;
    } else {
      assert forall j :: 0 <= j < |target| ==> target[j] != '?';
    }
  }

  /** The Host header net/http accepts never holds '?' or '#'. */
  predicate ValidHost(host: string) {
    '?' !in host && '#' !in host
  }

  /** `authorization` is two space-free words, the second being `token`. */
  predicate Credentials(authorization: string, scheme: string, token: string) {
    ' ' !in scheme && ' ' !in token && authorization == scheme + " " + token
  }

  /** The /metrics branch of ServeHTTP as written: the header is split on
      " "; exactly two chunks with the second equal to the token delegate to
      the metrics handler; otherwise the log statement reads chunks[1],
      which is out of range when there is only one chunk, and a 401 is
      written only when it is in range. */
  function MetricsGate(authorization: string, bearerToken: string): (r: Response)
    ensures r == Metrics || r == Status(Unauthorized) || r == Panic
  {
    var chunks := Split(authorization, ' ');
    if |chunks| == 2 && chunks[1] == bearerToken then Metrics
    else if |chunks| < 2 then Panic
    else Status(Unauthorized)
  }

  /** A header splits into one chunk exactly when it has no space. */
  lemma SingleChunk(s: string)
    ensures |Split(s, ' ')| == 1 <==> ' ' !in s
  {
    SplitThenJoin(s, ' ');
    if ' ' !in s {
      SplitSepFree(s, ' ');
    }
  }

  /** The metrics handler is reached exactly for "<word> <token>" with two
      space-free words; the first word is not checked (any scheme, even an
      empty one, passes). */
  lemma MetricsGateAdmits(authorization: string, bearerToken: string)
    ensures MetricsGate(authorization, bearerToken) == Metrics
        <==> exists scheme :: Credentials(authorization, scheme, bearerToken)
  {
    var chunks := Split(authorization, ' ');
    SplitThenJoin(authorization, ' ');
    if |chunks| == 2 && chunks[1] == bearerToken {
      assert ' ' !in chunks[0] && ' ' !in chunks[1];
      assert Credentials(authorization, chunks[0], bearerToken);
    }
    if exists scheme :: Credentials(authorization, scheme, bearerToken) {
      var scheme :| Credentials(authorization, scheme, bearerToken);
      JoinThenSplit([scheme, bearerToken], ' ');
      assert Join([scheme, bearerToken], ' ') == authorization;
    }
  }

  /** The gate panics exactly when the header has no space, in particular
      when it is missing. */
  lemma MetricsGatePanics(authorization: string, bearerToken: string)
    ensures MetricsGate(authorization, bearerToken) == Panic <==> ' ' !in authorization
  {
    SingleChunk(authorization);
  }

  /** A request to /metrics without an Authorization header panics instead
      of receiving 401. */
  lemma MissingAuthorizationPanics(bearerToken: string)
    ensures MetricsGate("", bearerToken) == Panic
  {
    MetricsGatePanics("", bearerToken);
  }

  /** The gate with the length check the log statement lacks: every refusal
      is a 401. */
  function CheckedMetricsGate(authorization: string, bearerToken: string): (r: Response)
    ensures r == Metrics || r == Status(Unauthorized)
  {
    var chunks := Split(authorization, ' ');
    if |chunks| == 2 && chunks[1] == bearerToken then Metrics else Status(Unauthorized)
  }

  /** The checked gate never panics, admits exactly the same headers, and
      agrees with the gate as written wherever that one does not panic. */
  lemma CheckedGateAgrees(authorization: string, bearerToken: string)
    ensures CheckedMetricsGate(authorization, bearerToken) != Panic
    ensures CheckedMetricsGate(authorization, bearerToken) == Metrics
        <==> exists scheme :: Credentials(authorization, scheme, bearerToken)
    ensures MetricsGate(authorization, bearerToken) != Panic ==>
      CheckedMetricsGate(authorization, bearerToken) == MetricsGate(authorization, bearerToken)
  {
    MetricsGateAdmits(authorization, bearerToken);
  }

  /** The port-80 handler `redirect(host)` as written: 404 for another
      host, otherwise 307 to https://host + the decoded URL path, with the
      query appended when present. */
  function RedirectToHttps(host: string, r: Request): (resp: Response)
    ensures resp == Status(NotFound) || resp.Redirect?
    ensures resp == Status(NotFound) <==> r.host != host
    ensures resp.Redirect? ==> resp.code == TemporaryRedirect && "https://" + host <= resp.target
  {
    if r.host != host then Status(NotFound)
    else Redirect(WithQuery("https://" + r.host + r.path, r.rawQuery), TemporaryRedirect)
  }

  /** For a path without '?' or '#', the redirect carries the same host,
      path and query to https. */
  lemma HttpsRedirectKeepsRequest(host: string, r: Request)
    requires r.host == host
    requires ValidHost(host) && '?' !in r.path && '#' !in r.path && '#' !in r.rawQuery
    ensures RedirectToHttps(host, r).Redirect?
    ensures ReadLocation(RedirectToHttps(host, r).target) == ("https://" + host + r.path, r.rawQuery)
  {
    WithQueryRoundTrip("https://" + host + r.path, r.rawQuery);
  }

  /** A request for /a%3Fb arrives with the decoded path "/a?b": the
      redirect as written sends the client to path "/a" with query "b". */
  lemma EncodedQuestionMarkSplitsPath(host: string)
    requires ValidHost(host)
    ensures var r := Request("GET", host, "/a?b", "", "");
      ReadLocation(RedirectToHttps(host, r).target) == ("https://" + host + "/a", "b")
  {
    var prefix := "https://" + host + "/a";
    IndexOfAfter(prefix, '?', "b");
    var url := prefix + "?" + "b";
    assert "https://" + host + "/a?b" == url;
    assert '#' !in url;
    assert url[..|prefix|] == prefix;
    assert url[|prefix| + 1..] == "b";
  }

  /** A request for /a%23b arrives with the decoded path "/a#b": the
      redirect as written sends the client to "/a", the rest being read as
      a fragment. */
  lemma EncodedHashTruncatesPath(host: string)
    requires ValidHost(host)
    ensures var r := Request("GET", host, "/a#b", "", "");
      ReadLocation(RedirectToHttps(host, r).target) == ("https://" + host + "/a", "")
  {
    var prefix := "https://" + host + "/a";
    IndexOfAfter(prefix, '#', "b");
    assert "https://" + host + "/a#b" == prefix + "#" + "b";
    assert (prefix + "#" + "b")[..|prefix|] == prefix;
  }

  /** Percent-encoding of the three characters that would change how the
      target is read back: '%', '?' and '#'. */
  function EscapePath(path: string): (e: string)
    ensures '?' !in e && '#' !in e
  {
    if path == [] then []
    else if path[0] == '?' then "%3F" + EscapePath(path[1..])
    else if path[0] == '#' then "%23" + EscapePath(path[1..])
    else if path[0] == '%' then "%25" + EscapePath(path[1..])
    else [path[0]] + EscapePath(path[1..])
  }

  /** Decoding of "%3F", "%23" and "%25"; other characters are kept. */
  function UnescapePath(e: string): string {
    if e == [] then []
    else if |e| >= 3 && e[..3] == "%3F" then "?" + UnescapePath(e[3..])
    else if |e| >= 3 && e[..3] == "%23" then "#" + UnescapePath(e[3..])
    else if |e| >= 3 && e[..3] == "%25" then "%" + UnescapePath(e[3..])
    else [e[0]] + UnescapePath(e[1..])
  }

  lemma {:induction false} UnescapeEscape(path: string)
    ensures UnescapePath(EscapePath(path)) == path
  {
    if path != [] {
      UnescapeEscape(path[1..]);
      var e := EscapePath(path);
      if path[0] == '?' {
        assert e[..3] == "%3F" && e[3..] == EscapePath(path[1..]);
      } else if path[0] == '#' {
        assert e[..3] == "%23" && e[3..] == EscapePath(path[1..]);
      } else if path[0] == '%' {
        assert e[..3] == "%25" && e[3..] == EscapePath(path[1..]);
      } else {
        assert e[0] == path[0] && e[1..] == EscapePath(path[1..]);
        assert path == [path[0]] + path[1..];
      }
    }
  }

  /** The redirect handler building its target from the escaped path. */
  function RedirectToHttpsEscaped(host: string, r: Request): (resp: Response)
    ensures resp == Status(NotFound) || resp.Redirect?
    ensures resp == Status(NotFound) <==> r.host != host
    ensures resp.Redirect? ==> resp.code == TemporaryRedirect && "https://" + host <= resp.target
  {
    if r.host != host then Status(NotFound)
    else Redirect(WithQuery("https://" + r.host + EscapePath(r.path), r.rawQuery), TemporaryRedirect)
  }

  /** With the escaped path every request path is carried over, whatever
      characters it holds, and so is every query a client can send: the
      client reads back the query, and decoding the location after the host
      gives the original path. */
  lemma EscapedRedirectKeepsRequest(host: string, r: Request)
    requires r.host == host && ValidHost(host) && '#' !in r.rawQuery
    ensures RedirectToHttpsEscaped(host, r).Redirect?
    ensures var (location, query) := ReadLocation(RedirectToHttpsEscaped(host, r).target);
      && query == r.rawQuery
      && "https://" + host <= location
      && UnescapePath(location[|"https://" + host|..]) == r.path
  {
    var base := "https://" + host;
    var location := base + EscapePath(r.path);
    WithQueryRoundTrip(location, r.rawQuery);
    assert location[|base|..] == EscapePath(r.path);
    UnescapeEscape(r.path);
  }

  /** The status-capturing wrapper around http.ResponseWriter; 0 means
      WriteHeader was never called. */
  datatype Recorder = Recorder(statusCode: int)

  const Fresh := Recorder(0)

  /** WriteHeader(code): forwarded, and the code remembered; whatever was
      written before is forgotten. */
  function WriteHeader(w: Recorder, code: int): (w': Recorder)
    ensures StatusCode(w') == (if code == 0 then OK else code)
  {
    Recorder(code)
  }

  /** StatusCode(): the remembered code, 200 if none; never 0. */
  function StatusCode(w: Recorder): (code: int)
    ensures code != 0
    ensures w.statusCode != 0 ==> code == w.statusCode
    ensures code == OK <==> w.statusCode == 0 || w.statusCode == OK
  {
    if w.statusCode == 0 then OK else w.statusCode
  }

  /** A sequence of WriteHeader calls. */
  function WriteHeaders(w: Recorder, codes: seq<int>): Recorder
    decreases |codes|
  {
    if codes == [] then w else WriteHeaders(WriteHeader(w, codes[0]), codes[1..])
  }

  lemma {:induction false} WriteHeadersKeepsLast(w: Recorder, codes: seq<int>)
    ensures WriteHeaders(w, codes) == if codes == [] then w else Recorder(codes[|codes| - 1])
    decreases |codes|
  {
    if codes != [] {
      WriteHeadersKeepsLast(WriteHeader(w, codes[0]), codes[1..]);
    }
  }

  /** The observed status is 200 if WriteHeader was never called, and
      otherwise the code of the most recent call (a final call with 0 also
      reads as 200). */
  lemma StatusCodeIsLastWrite(codes: seq<int>)
    ensures StatusCode(WriteHeaders(Fresh, codes))
         == if codes == [] || codes[|codes| - 1] == 0 then OK else codes[|codes| - 1]
  {
    WriteHeadersKeepsLast(Fresh, codes);
  }

  /** The WriteHeader calls a response makes on the wrapper. Delegated
      handlers make calls the model does not see, given as `delegated`;
      writing a body makes none; a panic stops before any. */
  function HeaderCalls(resp: Response, delegated: seq<int>): seq<int> {
    match resp
    case Status(code) => [code]
    case Body(_) => []
    case Redirect(_, code) => [code]
    case Metrics => delegated
    case Static => delegated
    case Panic => []
  }

  /** The status the deferred metrics observer reads after the handler. */
  function ObservedStatus(resp: Response, delegated: seq<int>): int {
    StatusCode(WriteHeaders(Fresh, HeaderCalls(resp, delegated)))
  }
}

=== FILE: text.dfy ===
/** The byte type and the few functions of Go's `strings` package the
    server relies on (Split, Join, TrimPrefix, TrimSuffix, Replace), stated
    over Dafny strings. Go strings are byte strings; the model keeps them as
    `string`, one `char` per byte. */
module Text {

  /** A Go byte. */
  newtype byte = b: int | 0 <= b < 256

  type Bytes = seq<byte>

  predicate IsDigit(c: char) {
    '0' <= c <= '9'
  }

  predicate AllDigits(s: string) {
    forall i :: 0 <= i < |s| ==> IsDigit(s[i])
  }

  /** Index of the first `c` in `s`, or |s| if there is none. */
  function IndexOf(s: string, c: char): (i: nat)
    ensures i <= |s|
    ensures forall j :: 0 <= j < i ==> s[j] != c
    ensures i < |s| ==> s[i] == c
  {
    if s == [] || s[0] == c then 0 else 1 + IndexOf(s[1..], c)
  }

  /** The first `c` of `piece + [c] + rest` is the one after `piece`. */
  lemma IndexOfAfter(piece: string, c: char, rest: string)
    requires c !in piece
    ensures IndexOf(piece + [c] + rest, c) == |piece|
  {
    var s := piece + [c] + rest;
    assert s[|piece|] == c;
    assert forall j :: 0 <= j < |piece| ==> s[j] == piece[j];
  }

  /** strings.TrimPrefix: drop `prefix` once if `s` starts with it. */
  function TrimPrefix(s: string, prefix: string): string {
    if prefix <= s then s[|prefix|..] else s
  }

  /** strings.TrimSuffix: drop `suffix` once if `s` ends with it. */
  function TrimSuffix(s: string, suffix: string): string {
    if |suffix| <= |s| && s[|s| - |suffix|..] == suffix then s[..|s| - |suffix|] else s
  }

  /** strings.Replace(s, from, to, -1) for one-character patterns. */
  function ReplaceAll(s: string, from: char, to: char): string {
    seq(|s|, i requires 0 <= i < |s| => if s[i] == from then to else s[i])
  }

  /** strings.Split(s, sep) for a one-character separator: the pieces of `s`
      between occurrences of `sep`, in order. */
  function Split(s: string, sep: char): (pieces: seq<string>)
    ensures |pieces| >= 1
  {
    if s == [] then [""]
    else
      var rest := Split(s[1..], sep);
      if s[0] == sep then [""] + rest
      else [[s[0]] + rest[0]] + rest[1..]
  }

  /** strings.Join(pieces, sep) for a one-character separator. */
  function Join(pieces: seq<string>, sep: char): string {
    if |pieces| == 0 then ""
    else if |pieces| == 1 then pieces[0]
    else pieces[0] + [sep] + Join(pieces[1..], sep)
  }

  /** No piece contains the separator. */
  predicate SepFree(pieces: seq<string>, sep: char) {
    forall i :: 0 <= i < |pieces| ==> sep !in pieces[i]
  }

  /** Split loses nothing: joining its pieces gives back the input, and no
      piece contains the separator. */
  lemma {:induction false} SplitThenJoin(s: string, sep: char)
    ensures Join(Split(s, sep), sep) == s
    ensures SepFree(Split(s, sep), sep)
  {
    if s != [] {
      SplitThenJoin(s[1..], sep);
      var rest := Split(s[1..], sep);
      if s[0] == sep {
        assert ([""] + rest)[1..] == rest;
        assert s == [sep] + s[1..];
      } else {
        var pieces := [[s[0]] + rest[0]] + rest[1..];
        assert s == [s[0]] + s[1..];
        if |rest| > 1 {
          assert pieces[1..] == rest[1..];
        }
        forall i | 0 <= i < |pieces|
          ensures sep !in pieces[i]
        {
          if i > 0 {
            assert pieces[i] == rest[i];
          } else {
            assert sep !in rest[0];
          }
        }
      }
    }
  }

  /** A separator-free string is a single piece. */
  lemma {:induction false} SplitSepFree(s: string, sep: char)
    requires sep !in s
    ensures Split(s, sep) == [s]
  {
    if s != [] {
      SplitSepFree(s[1..], sep);
      assert s == [s[0]] + s[1..];
    }
  }

  /** Splitting `a + sep + b` yields `a` followed by the pieces of `b`. */
  lemma {:induction false} SplitAfterPiece(a: string, sep: char, b: string)
    requires sep !in a
    ensures Split(a + [sep] + b, sep) == [a] + Split(b, sep)
  {
    if a == [] {
      assert (a + [sep] + b)[1..] == b;
    } else {
      SplitAfterPiece(a[1..], sep, b);
      assert (a + [sep] + b)[1..] == a[1..] + [sep] + b;
      assert a == [a[0]] + a[1..];
    }
  }

  /** Split inverts Join on separator-free pieces. */
  lemma {:induction false} JoinThenSplit(pieces: seq<string>, sep: char)
    requires |pieces| >= 1
    requires SepFree(pieces, sep)
    ensures Split(Join(pieces, sep), sep) == pieces
  {
    if |pieces| == 1 {
      SplitSepFree(pieces[0], sep);
    } else {
      assert sep !in pieces[0];
      assert SepFree(pieces[1..], sep) by {
        forall i | 0 <= i < |pieces[1..]|
          ensures sep !in pieces[1..][i]
        {
          assert pieces[1..][i] == pieces[i + 1];
        }
      }
      JoinThenSplit(pieces[1..], sep);
      SplitAfterPiece(pieces[0], sep, Join(pieces[1..], sep));
      assert pieces == [pieces[0]] + pieces[1..];
    }
  }
}

=== FILE: underlying_fs.dfy ===
/** The static root as the file servers see it (http.Dir), reduced to what
    can be opened at which path, and the directory-index path rule both
    FileSystem variants apply. */
module UnderlyingFs {
  import opened Wrappers
  import opened Text

  /** os.FileInfo. */
  datatype FileInfo = FileInfo(name: string, size: int, modTime: int, isDir: bool)

  datatype FsError = NotExist(path: string) | ReadFailed(path: string)

  /** An openable path: its stat, the outcome of reading it to the end
      (ioutil.ReadAll), and the outcome of listing it (Readdir(-1)), which
      is consulted only for directories. */
  datatype Node = Node(info: FileInfo, data: Result<Bytes, FsError>, listing: Result<seq<FileInfo>, FsError>)

  /** The paths that can be opened; any other path fails to open. */
  type Disk = map<string, Node>

  /** fs.Open(path) on the underlying file system. */
  function OpenDisk(disk: Disk, path: string): (r: Result<Node, FsError>)
    ensures r.Success? <==> path in disk
  {
    if path in disk then Success(disk[path]) else Failure(NotExist(path))
  }

  /** strings.TrimSuffix(path, "/") + "/index.html": the file whose
      presence makes a directory servable. */
  function IndexPath(path: string): string {
    TrimSuffix(path, "/") + "/index.html"
  }

  /** A directory path with or without one trailing slash needs the same
      index file, the one directly inside it. */
  lemma IndexPathOfDirectory(dir: string)
    requires dir == [] || dir[|dir| - 1] != '/'
    ensures IndexPath(dir) == dir + "/index.html"
    ensures IndexPath(dir + "/") == dir + "/index.html"
  {
    var slashed := dir + "/";
    assert slashed[|slashed| - 1..] == "/";
    assert slashed[..|slashed| - 1] == dir;
    if |dir| >= 1 {
      assert dir[|dir| - 1..] != "/";
    }
  }
}

=== FILE: wrappers.dfy ===
/** Failure-carrying values used in place of Go's (value, error) pairs and
    nil results. */
module Wrappers {

  datatype Option<+T> = None | Some(value: T)

  /** A Go result `(v, nil)` is `Success(v)`; `(nil, err)` is `Failure(err)`. */
  datatype Result<+T, +E> = Success(value: T) | Failure(error: E)
}
